=== FILE: README.md ===
# Mission planner core, modelled in Dafny

This project models the logic of a browser-based UAV mission planner. The
planner keeps a *current mission*, made of a name, a home position and an
ordered list of *waypoints* (latitude, longitude, altitude, speed). It also
keeps a library of *saved missions*. The parts modelled are:

- **Mission store** (`MissionReducer`, file `mission.dfy`). The reducer handles all
  nine actions: add, update and delete waypoint; rename; set home; new
  mission; load; save (an upsert by mission id); delete saved mission. It also
  covers how a fresh mission is created.
- **Telemetry simulation** (`TelemetrySim`, `telemetry.dfy`). Start and stop
  the simulation, and the body of the two-second interval. Each tick moves the
  simulated vehicle to the next waypoint, wrapping round the list. Battery is
  derived from the position in the list; heading and signal are random.
- **Status bar** (`HeaderStatus`, `header.dfy`). Colour thresholds for
  altitude, battery and signal, and the choice between the live read-out
  and STANDBY.
- **Exporters** (`Export`, `export.dfy`):
  - the text written by the GeoJSON, KML, CSV and "MAVLink" (QGC WPL 110)
    exports;
  - the file names and MIME types;
  - the notices raised for MAVLink and PDF.
- **Forecast aggregation** (`Weather`, `weather.dfy`). Groups three-hourly
  items by day, keeps five days, and computes min/max temperature, mean
  humidity, maximum precipitation and a midday sky per day.
- **Terrain profile chart** (`Terrain`, `terrain.dfy`). Sea-level altitude of a
  waypoint, the metric/imperial factor, and the alignment of terrain samples
  to waypoints by rounding.
- **Pre-flight checklist** (`Checklist`, `checklist.dfy`). The toggle and the
  ALL CLEAR predicate.
- **Mock map** (`MapCanvas`, `mapcanvas.dfy`). The affine maps from a click to
  a latitude/longitude, and from a latitude/longitude to a marker position.

Shared pieces:

- `Types` and `Numeric` in `types.dfy`: the records, the defaults, and
  `Math.round` on exact reals.
- `Text` in `text.dfy`: decimal rendering of integers, `join`, and the
  `split` that undoes it.
- `Sequences` in `seqs.dfy`: ordered subsequences and `filter`, shared by
  the deletions and the forecast grouping.

The simulation in the code only hops from waypoint to waypoint. It has no
great-circle distance, bearing or interpolation along a segment, so the model
has none either.

Things the program takes from its environment are parameters:

- `now` is `Date.now()`.
- A `Draw` (a real in [0, 1)) is one `Math.random()`.
- `show` is JavaScript's number-to-string conversion.
- `stringify` is `JSON.stringify`.
- `dayOf` and `hourOf` are the locale day name and the local hour of a
  timestamp.

Numbers are exact reals.

## Model

| member | source | states |
|---|---|---|
| MissionReducer.NewMission | hooks/useMission.tsx:22-27 | A new mission is named 'New Mission', has no waypoints, is homed at the default position (34.0522, -118.2437), and its id is `mission_` followed by decimal digits |
| MissionReducer.NewMissionIdsDiffer | hooks/useMission.tsx:23 | Missions created at different clock readings get different ids, because decimal rendering is injective |
| MissionReducer.InitialState | hooks/useMission.tsx:29-32 | The store starts with an empty library, and its current mission is a fresh one: named 'New Mission', homed at the default position, without waypoints, with id `mission_` and the clock's digits |
| MissionReducer.ClickedWaypoint | hooks/useMission.tsx:37-43 | A clicked waypoint keeps the clicked latitude and longitude and gets altitude 100 and speed 15 |
| MissionReducer.FindIndex | hooks/useMission.tsx:104 | The result is the first position holding the id, or None when no saved mission has it |
| MissionReducer.ReplaceWaypoint | hooks/useMission.tsx:57-59 | Length is kept; every waypoint with the payload's id becomes the payload; every other waypoint is unchanged |
| MissionReducer.RemoveWaypoint | hooks/useMission.tsx:68 | The result is an order-preserving subsequence of the list. Each waypoint with another id occurs in it exactly as often as in the list, and no waypoint with the id occurs. With `Sequences.FilterUnique` this pins the result down to the filtered list |
| MissionReducer.RemoveMission | hooks/useMission.tsx:116 | The same for saved missions: an ordered subsequence of the library. Each mission with another id keeps its multiplicity, and none with the id remains |
| Sequences.Filter | hooks/useMission.tsx:68 | Filtering keeps order: the result is a subsequence. Every accepted element keeps its multiplicity, and no rejected element remains |
| Sequences.FilterUnique | hooks/useMission.tsx:68 | An ordered subsequence of accepted elements, as long as the filtered list, is the filtered list; so order and multiplicity determine the filter's result |
| MissionReducer.Upsert | hooks/useMission.tsx:102-112 | Saving puts the mission in the library. If a mission with its id exists, the first one is replaced in place and the length is kept. Otherwise it is appended and the earlier entries are kept |
| MissionReducer.Reduce | hooks/useMission.tsx:34-122 | Only SAVE_MISSION and DELETE_SAVED_MISSION change the library, and those two never change the current mission |
| MissionReducer.AddWaypointAppends | hooks/useMission.tsx:36-50 | ADD_WAYPOINT appends exactly one waypoint (clicked position, altitude 100, speed 15). Earlier waypoints, id, name and home are unchanged |
| MissionReducer.UpdateAbsentIdIsIdentity | hooks/useMission.tsx:52-61 | Updating with an id no waypoint carries leaves the state identical |
| MissionReducer.UpdateIdempotent | hooks/useMission.tsx:52-61 | Applying the same UPDATE_WAYPOINT twice equals applying it once |
| MissionReducer.DeleteAbsentIdIsIdentity | hooks/useMission.tsx:63-70 | Deleting an id no waypoint carries leaves the list identical |
| MissionReducer.DeleteIdempotent | hooks/useMission.tsx:63-70 | Applying the same DELETE_WAYPOINT twice equals applying it once |
| MissionReducer.DeleteUndoesAdd | hooks/useMission.tsx:36-70 | Deleting the id of the waypoint just added by a click restores the previous state, when that id was not already in use |
| MissionReducer.SettersChangeOneField | hooks/useMission.tsx:72-89 | SET_MISSION_NAME and SET_HOME_POSITION change only that field of the current mission |
| MissionReducer.CreateNewMissionResets | hooks/useMission.tsx:90-95 | CREATE_NEW_MISSION gives an empty 'New Mission' at the default home and keeps the library |
| MissionReducer.SaveIdempotent | hooks/useMission.tsx:102-112 | Saving twice is the same as saving once |
| MissionReducer.SaveStoresCurrent | hooks/useMission.tsx:102-112 | After a save the library holds the current mission and every saved mission with another id, and nothing else was added |
| MissionReducer.DeleteSavedRemovesOnlyId | hooks/useMission.tsx:113-118 | A mission is in the library after DELETE_SAVED_MISSION exactly when it was before and has another id; the current mission is untouched |
| MissionReducer.ReducePreservesDistinctIds | hooks/useMission.tsx:102-118 | Every action keeps the saved missions' ids pairwise distinct |
| TelemetrySim.StartSimulation | hooks/useTelemetry.tsx:51-67 | With no waypoints the state is unchanged and the alert is raised. Otherwise the simulation runs from index 0, with the first waypoint's position, heading 0, speed 0, battery 100 and signal 99 |
| TelemetrySim.StopSimulation | hooks/useTelemetry.tsx:69-73 | Stopping clears the running flag and the snapshot, and rewinds the index to 0 |
| TelemetrySim.Battery | hooks/useTelemetry.tsx:36 | Battery lies in (50, 100] and is exactly 100 at the first waypoint and nowhere else |
| TelemetrySim.BatteryDrains | hooks/useTelemetry.tsx:36 | A later waypoint reports strictly less battery, by exactly 50/n per step |
| TelemetrySim.Heading | hooks/useTelemetry.tsx:34 | Heading lies in [0, 360) |
| TelemetrySim.Signal | hooks/useTelemetry.tsx:37 | Signal lies in (85, 95] |
| TelemetrySim.Tick | hooks/useTelemetry.tsx:25-42 | The next index is (previous + 1) mod the current list length, so it is always valid. The snapshot carries that waypoint's position, altitude and speed; its battery is `Battery` of the new index (100 − 50·next/n), its heading and signal are `Heading` and `Signal` of the two draws, so all three lie in range |
| TelemetrySim.Settle | hooks/useTelemetry.tsx:21-49 | When the simulation is not running or the list is empty, the snapshot is cleared and the index reset. Otherwise the state is left to the ticks |
| TelemetrySim.StopIdempotent | hooks/useTelemetry.tsx:69-73 | Stopping twice is stopping once, and it always lands in the idle state |
| TelemetrySim.StopThenSettleStaysIdle | hooks/useTelemetry.tsx:43-46 | After a stop, the effect keeps the state idle |
| TelemetrySim.StartThenStopIsIdle | hooks/useTelemetry.tsx:51-73 | Start followed by stop ends idle, whatever the waypoint list |
| TelemetrySim.BatteryResetsOnWrap | hooks/useTelemetry.tsx:27-36 | The tick that wraps from the last waypoint to the first reports a full battery again, so battery is not monotone |
| TelemetrySim.RunVisitsCyclically | hooks/useTelemetry.tsx:25-42 | After k ticks over an unchanged list the index is (start + k) mod n, and the running flag is unchanged |
| HeaderStatus.AltitudeTone | components/Header.tsx:29-35 | The altitude colour is red or green, and green exactly on the closed band [20, 120], so 20 and 120 are safe |
| HeaderStatus.BatteryTone | components/Header.tsx:54 | The battery colour is red or green, and green exactly above 20, so 20 itself is red |
| HeaderStatus.SignalTone | components/Header.tsx:55 | The signal colour is orange or green, and green exactly above 50, so 50 itself is orange |
| HeaderStatus.Show | components/Header.tsx:44-58 | The read-out is shown exactly when the simulation runs and a snapshot exists, and it shows that snapshot with the altitude, battery and signal colours given by `AltitudeTone`, `BatteryTone` and `SignalTone`; otherwise STANDBY |
| HeaderStatus.SimulatedLinkAlwaysGreen | components/Header.tsx:54-55 | The start snapshot and every running tick show a green battery and a green signal |
| HeaderStatus.StoppedShowsStandby | components/Header.tsx:57-58 | After stop the status bar shows STANDBY |
| Checklist.Toggle | components/panels/ChecklistPanel.tsx:8-13 | The toggled item's checked status flips; every other entry is unchanged |
| Checklist.FirstToggleChecks | components/panels/ChecklistPanel.tsx:6-11 | An item with no entry of its own becomes checked on its first toggle exactly when its name is not inherited from `Object.prototype`; an inherited name such as `toString` already reads as checked, so its first toggle stores false |
| Checklist.DoubleToggleRestores | components/panels/ChecklistPanel.tsx:8-13 | Toggling an item twice restores its status and every other item's |
| Checklist.AllChecked | components/panels/ChecklistPanel.tsx:6-15 | ALL CLEAR holds exactly when every listed item reads as truthy: an own entry that is true, or an inherited `Object.prototype` name without an own entry. With no entries, as when the panel opens, it holds exactly when every item is an inherited name |
| Checklist.ToggleEachClears | components/panels/ChecklistPanel.tsx:8-15 | Ticking each of a list of distinct items that read as unchecked once turns ALL CLEAR on (an inherited name with no own entry reads as checked, so it is not such an item) |
| Checklist.PreflightClears | constants.ts:19-30 | The ten shipped items are distinct, so ticking each once from the opening state gives ALL CLEAR |
| MapCanvas.ClickToLatLng | components/MapCanvas.tsx:12-23 | A click inside the canvas yields a latitude in [33.9522, 34.0522] and a longitude in [-118.2437, -118.0437] |
| MapCanvas.PositionOf | components/MapCanvas.tsx:25-38 | The drawing map sends (34.1022, -118.3437) to the top-left corner |
| MapCanvas.PositionRoundTrip | components/MapCanvas.tsx:25-38 | The drawing map is a bijection: its inverse gives back the point and the position |
| MapCanvas.PositionMonotone | components/MapCanvas.tsx:31-32 | North is up and east is right: the top offset falls as latitude rises, and the left offset rises with longitude |
| MapCanvas.ClickIsDrawnShifted | components/MapCanvas.tsx:19-32 | A waypoint placed by a click at (x, y) is drawn at top 50 + 100y/h % and left 50 + 100x/w % |
| MapCanvas.ClickedVertexShiftedHalfCanvas | components/MapCanvas.tsx:59-63 | The path vertex of a clicked waypoint is at (x + w/2, y + h/2) pixels |
| MapCanvas.PolylinePoint | components/MapCanvas.tsx:59-63 | A polyline vertex, converted back to percent of the canvas, is the marker's position; the drawing map's top-left (34.1022, -118.3437) and bottom-right (34.0022, -118.1437) land on the pixel corners (0, 0) and (w, h) |
| MapCanvas.PathVertices | components/MapCanvas.tsx:56-64 | The path is drawn exactly when there is more than one waypoint, with one vertex per waypoint in order |
| MapCanvas.CornerClickDrawnOffCanvas | components/MapCanvas.tsx:19-32 | A click in the bottom-right corner is drawn at 150 %, outside the canvas |
| MapCanvas.ClickToLatLngUnderCursor | components/MapCanvas.tsx:25-32 | The corrected click map covers the drawn area and sends the canvas centre to the default home |
| MapCanvas.ClickUnderCursorIsDrawnThere | components/MapCanvas.tsx:19-32 | With the corrected click map, a marker is drawn exactly at the click, in percent and in pixels |
| Terrain.AbsoluteAltitude | components/TerrainProfileChart.tsx:17-19 | An AGL waypoint's sea-level altitude is its altitude plus the ground elevation (0 when none is recorded); any other waypoint's is its altitude |
| Terrain.AglNotBelowGround | components/TerrainProfileChart.tsx:17-19 | An AGL waypoint of non-negative height is plotted at or above its recorded ground elevation, and raising it by d raises its sea-level altitude by d |
| Terrain.ConversionFactor | components/TerrainProfileChart.tsx:41-44 | The factor is 3.28084 exactly for 'imperial' and 1 otherwise |
| Terrain.AlignedIndex | components/TerrainProfileChart.tsx:52-54 | The rounded index round(i/(n-1)·(m-1)) is a valid sample index in [0, m-1] |
| Terrain.AlignedIndexMonotone | components/TerrainProfileChart.tsx:52-55 | Alignment is non-decreasing in the waypoint index |
| Terrain.AlignedEndpoints | components/TerrainProfileChart.tsx:52-55 | The first waypoint sits over the first sample and the last over the last |
| Terrain.BuildChart | components/TerrainProfileChart.tsx:26-57 | No chart below two waypoints. Otherwise labels 'WP i+1'; the converted sea-level altitude per waypoint; and n aligned terrain values when the profile is non-empty (0 otherwise), first and last at the profile's ends |
| Numeric.Round | components/TerrainProfileChart.tsx:54 | `Math.round` lands within one half of its argument |
| Weather.DayKeys | hooks/useWeather.tsx:15-24 | The day keys are pairwise distinct, every item's day is among them, and each is some item's day |
| Weather.DayKeysPrefix | hooks/useWeather.tsx:16-24 | Days are listed in order of first appearance: the keys of a prefix of the forecast are a prefix of the keys |
| Weather.Group | hooks/useWeather.tsx:15-22 | A day's group is an order-preserving subsequence of the forecast. Each item of that day occurs as often as in the forecast, and no item of another day occurs |
| Weather.ItemInExactlyOneGroup | hooks/useWeather.tsx:15-22 | Every item falls into exactly one day group, that of its own day, which is listed |
| Weather.GroupNonEmpty | hooks/useWeather.tsx:18-21 | Every listed day has at least one item |
| Weather.Midday | hooks/useWeather.tsx:29 | The representative entry is the first with hour >= 12, or the day's first entry when there is none |
| Weather.Summarise | hooks/useWeather.tsx:25-39 | A day's summary carries the day, the rounded least and greatest temperature (so min <= max), the rounded mean humidity, round(100 × max pop), and the icon and label of the day's midday entry as chosen by `Weather.Midday` |
| Weather.MeanBetweenMinAndMax | hooks/useWeather.tsx:35 | The mean humidity lies between the least and the greatest humidity |
| Weather.HumidityWithinDay | hooks/useWeather.tsx:35 | The reported humidity lies between the rounded least and greatest humidity of the day |
| Weather.PrecipitationPercent | hooks/useWeather.tsx:36 | With probabilities in [0, 1], the precipitation percentage lies in [0, 100] |
| Weather.ProcessWeatherData | hooks/useWeather.tsx:14-41 | The result has min(days, 5) entries, for the first days in order of appearance, each day once, each with min <= max |
| Weather.ReportedDaySummarisesGroup | hooks/useWeather.tsx:24-39 | Each reported day summarises exactly the non-empty group of its items |
| Weather.EmptyForecast | hooks/useWeather.tsx:14-24 | An empty forecast gives no days |
| Export.CsvRowCells | services/exportService.ts:85-87 | CSV row k splits at commas into the 1-based number k+1, then latitude, longitude, altitude and speed |
| Export.CsvContent | services/exportService.ts:84-88 | When numbers render without line breaks, tabs or commas, the CSV text splits into the fixed header line followed by one line per waypoint in order, or a single empty line when there are none |
| Export.CsvRowDecodes | services/exportService.ts:85-87 | A CSV row is non-empty and reads back as its waypoint's latitude, longitude, altitude and speed, given a reader that recovers those four rendered numbers |
| Export.CsvRoundTrip | services/exportService.ts:83-90 | Reading the CSV back gives every waypoint's latitude, longitude, altitude and speed, in order, given a reader that recovers the rendered numbers of this mission |
| Export.WplCommand | services/exportService.ts:96 | Both branches give command 16, the first row included |
| Export.WplRowCells | services/exportService.ts:95-98 | Every WPL row has 12 tab-separated cells: the 0-based index, frame 3, command 16, speed, latitude, longitude, altitude, and a final 1 |
| Export.WplContent | services/exportService.ts:95-98 | When numbers render without line breaks, tabs or commas, the WPL text splits into `QGC WPL 110` followed by one line per waypoint in order |
| Export.WplRowDecodes | services/exportService.ts:96-97 | A WPL row is non-empty and reads back as its waypoint's latitude, longitude, altitude and speed, given a reader that recovers those four rendered numbers |
| Export.WplRoundTrip | services/exportService.ts:92-101 | Reading the WPL text back gives every waypoint's latitude, longitude, altitude and speed, in order, given a reader that recovers the rendered numbers of this mission |
| Export.KmlTripleOrder | services/exportService.ts:65 | A KML coordinate triple splits into longitude, latitude and altitude, in that order |
| Export.KmlWaypointLines | services/exportService.ts:45-81 | Waypoint i's path line holds its lng,lat,alt triple; its placemark is named 'WP i+1' and carries the same triple |
| Export.KmlContent | services/exportService.ts:46-79 | Breaking the KML text at line breaks gives back exactly its lines, when numbers render without line breaks and the mission name has none |
| Export.GeoJson | services/exportService.ts:16-41 | The value is typed FeatureCollection and has n+1 features; the first is a LineString through [lng, lat, alt] of every waypoint in order |
| Export.DecodePointFeature | services/exportService.ts:30-40 | Point feature i is named 'WP i+1' and reads back as its waypoint's fields |
| Export.GeoJsonRoundTrip | services/exportService.ts:16-43 | Reading the point features back gives every waypoint's fields in order |
| Export.Export | services/exportService.ts:16-105 | PDF produces no file. The others produce the name plus `.geojson`, `.kml`, `.csv` or `.txt` with that format's content. MAVLink and PDF raise their notice |
| Export.FilenamesDistinct | services/exportService.ts:42-99 | The four file-producing formats give four different file names for one mission |

## Left out

- Browser I/O is not modelled:
  - `triggerDownload` (Blob, object URL, anchor click);
  - `alert` and `confirm`, except that the alert text is returned;
  - `fetch` in the weather provider;
  - `localStorage`.
- React plumbing is not modelled: contexts, providers, effects, JSX rendering
  and the Chart.js construction. The telemetry effect is modelled only as
  `Settle` plus the tick.
- The timing of `setInterval` and the scheduling of React state updates are
  not modelled. A tick is one step over the waypoint list current at the time.
- IEEE-754 doubles are exact reals:
  - `Math.round` is floor(x + 1/2) on the exact value;
  - `Math.min`, `Math.max` and the mean are exact;
  - the ratio `i/(n-1)` in the terrain chart is not rounded.
- `toLocaleDateString(..., { weekday: 'short' })` and `getHours` are the parameters
  `dayOf` and `hourOf`.
- The order of `Object.keys` is taken to be insertion order. This holds for
  weekday names but not for keys that look like integers.
- Weather.DayKeys and Weather.Group assume that `dayOf` never returns a name
  a plain object inherits from `Object.prototype`. For a day named
  `constructor` the source finds an inherited function instead of an empty
  group and throws on `push`. The short English weekday names are never such
  names.
- JavaScript's number-to-string conversion is an abstract `show`, assumed never
  to produce a line break, tab or comma. The CSV and WPL round trips assume a
  reader `read` that recovers the rendered numbers of the mission at hand.
  They do not assume one that inverts `show` on every real: no such reader
  exists, as there are more reals than strings. Whether JavaScript's shortest
  round-trip rendering meets the assumption for doubles is not modelled.
- `JSON.stringify(_, null, 2)` is an abstract `stringify`. The round trip is
  stated on the JSON value, not on its text.
- MapCanvas.PolylinePoint reads the CSS percentage back with `parseFloat`; the
  model takes that read as exact. The `|| 0` fallback for a missing canvas
  element is not modelled.
- MapCanvas.PolylinePoint and MapCanvas.ClickIsDrawnShifted use one `w` and
  one `h` for both the element's `clientWidth`/`clientHeight` (used for the
  path) and its bounding-box width/height (used for the click). The browser
  rounds `clientWidth` to whole pixels, so the two differ by under a pixel
  when the layout size is fractional.
- MapCanvas.ClickToLatLng requires a canvas of positive width and height, as a
  click cannot land on an element of zero size.
- Terrain.BuildChart: `unitSystem` is read from the settings, but the settings
  provider does not supply it. In practice it is absent, giving factor 1; the
  model keeps it as an optional parameter.
- LOAD_MISSION only replaces the current mission. Beyond the library staying
  unchanged (the contract of `MissionReducer.Reduce`) it has no property of
  its own.
- The checklist panel is referenced by the sidebar although the panel enum
  does not declare it. Panel navigation is not modelled.
- The reducer's `default` branch (an unknown action) is not modelled, because
  the action type admits only the nine actions.

## Findings

| source | as written | input that shows it | evidently intended | confidence | as-written member | corrected member |
|---|---|---|---|---|---|---|
| components/MapCanvas.tsx:19-20 | The click map puts Los Angeles (34.0522, -118.2437) at the canvas's top-left corner. The drawing map puts it at the centre, so every clicked waypoint is drawn half a canvas below and to the right of the click | A click at the bottom-right corner (x = w, y = h) is drawn at top 150 %, left 150 %, outside the canvas | Clicks use the drawing map's frame: lat = 34.1022 − 0.1·y/h, lng = −118.3437 + 0.2·x/w, so the marker appears under the cursor and the canvas centre is Los Angeles | medium; not executed | MapCanvas.CornerClickDrawnOffCanvas | MapCanvas.ClickUnderCursorIsDrawnThere |

=== FILE: checklist.dfy ===
/** The pre-flight checklist: a record from item text to a checked flag
    that starts empty, a toggle, and the ALL CLEAR predicate. The record is
    a plain object: an item with no entry of its own reads as unchecked
    (`undefined` is falsy) unless its name is one the object inherits from
    `Object.prototype`, which reads as a truthy function. */
module Checklist {

  const PreflightItems: seq<string> := [
    "UAV battery fully charged",
    "Controller battery fully charged",
    "Propellers secure and undamaged",
    "Gimbal and camera check",
    "GPS lock acquired",
    "Return-to-Home altitude set",
    "Airspace authorization checked (LAANC/NOTAM)",
    "Weather conditions acceptable",
    "Obstacle clearance plan reviewed",
    "Emergency procedures briefed"
  ]

  type CheckedItems = map<string, bool>

  /** The names every plain object inherits from `Object.prototype`. Each
      reads as a function, or for `__proto__` as the prototype itself, so
      each is truthy until the record gets an entry of its own. */
  const InheritedNames: set<string> := {
    "constructor", "hasOwnProperty", "isPrototypeOf", "propertyIsEnumerable",
    "toLocaleString", "toString", "valueOf", "__proto__",
    "__defineGetter__", "__defineSetter__", "__lookupGetter__", "__lookupSetter__" }

  /** Truthiness of the record's value for `item`: its own entry when it has
      one, otherwise whether the name is inherited. */
  predicate IsChecked(c: CheckedItems, item: string) {
    if item in c then c[item] else item in InheritedNames
  }

  /** Ticking or unticking an item: its entry becomes the negation of its
      current truthiness, and every other entry is copied unchanged. */
  function Toggle(c: CheckedItems, item: string): (r: CheckedItems)
    ensures r.Keys == c.Keys + {item}
    ensures IsChecked(r, item) <==> !IsChecked(c, item)
    ensures forall other :: other != item ==> (other in r <==> other in c)
    ensures forall other :: other != item && other in c ==> r[other] == c[other]
  {
    c[item := !IsChecked(c, item)]
  }

  function ListedItems(items: seq<string>): set<string> {
    set x | x in items
  }

  /** The items whose entry is true. */
  function CheckedKeys(c: CheckedItems): set<string> {
    set k | k in c && c[k]
  }

  /** The names that read as truthy: own entries that are true, and
      inherited names without an own entry. */
  function TruthyNames(c: CheckedItems): set<string> {
    CheckedKeys(c) + (InheritedNames - c.Keys)
  }

  /** ALL CLEAR: every listed item is checked, that is, the listed items
      are among the names that read as truthy. With no entries at all, the
      list is clear exactly when it names inherited members only, so a list
      with one ordinary item is not. */
  function AllChecked(items: seq<string>, c: CheckedItems): (b: bool)
    ensures b <==> ListedItems(items) <= TruthyNames(c)
    ensures c == map[] ==> (b <==> ListedItems(items) <= InheritedNames)
  {
    CheckedKeysCover(items, c);
    forall i :: 0 <= i < |items| ==> IsChecked(c, items[i])
  }

  lemma CheckedKeysCover(items: seq<string>, c: CheckedItems)
    ensures (forall i :: 0 <= i < |items| ==> IsChecked(c, items[i]))
            <==> ListedItems(items) <= TruthyNames(c)
  {
    if forall i :: 0 <= i < |items| ==> IsChecked(c, items[i]) {
      forall x | x in ListedItems(items) ensures x in TruthyNames(c) {
        var i :| 0 <= i < |items| && items[i] == x;
        assert IsChecked(c, x);
      }
    }
    if ListedItems(items) <= TruthyNames(c) {
      forall i | 0 <= i < |items| ensures IsChecked(c, items[i]) {
        assert items[i] in ListedItems(items);
        assert items[i] in TruthyNames(c);
      }
    }
  }

  /** An item never toggled before becomes checked by its first toggle,
      unless its name is inherited: then it already reads as checked and
      the first toggle stores false. */
  lemma FirstToggleChecks(c: CheckedItems, item: string)
    requires item !in c
    ensures IsChecked(Toggle(c, item), item) <==> item !in InheritedNames
    ensures item in InheritedNames ==> Toggle(c, item)[item] == false
  {
  }

  /** Toggling twice restores whether the item is checked, and leaves
      every other entry as it was. */
  lemma DoubleToggleRestores(c: CheckedItems, item: string)
    ensures IsChecked(Toggle(Toggle(c, item), item), item) == IsChecked(c, item)
    ensures forall other :: other != item ==> IsChecked(Toggle(Toggle(c, item), item), other) == IsChecked(c, other)
  {
  }

  /** Ticking every item of a list once, in order, starting from the
      record `c`. */
  function ToggleEach(items: seq<string>, c: CheckedItems): (r: CheckedItems)
    decreases |items|
  {
    if |items| == 0 then c else ToggleEach(items[1..], Toggle(c, items[0]))
  }

  /** Items that are not toggled keep their status. */
  lemma {:induction false} ToggleEachOthers(items: seq<string>, c: CheckedItems, x: string)
    requires x !in items
    ensures IsChecked(ToggleEach(items, c), x) == IsChecked(c, x)
    decreases |items|
  {
    if |items| > 0 {
      ToggleEachOthers(items[1..], Toggle(c, items[0]), x);
    }
  }

  /** Ticking each of a list of distinct, unchecked items once turns ALL
      CLEAR on. */
  lemma {:induction false} ToggleEachClears(items: seq<string>, c: CheckedItems)
    requires forall i, j :: 0 <= i < j < |items| ==> items[i] != items[j]
    requires forall i :: 0 <= i < |items| ==> !IsChecked(c, items[i])
    ensures AllChecked(items, ToggleEach(items, c))
    decreases |items|
  {
    if |items| > 0 {
      var c' := Toggle(c, items[0]);
      var rest := items[1..];
      forall i | 0 <= i < |rest| ensures !IsChecked(c', rest[i]) {
        assert rest[i] == items[i + 1];
      }
      ToggleEachClears(rest, c');
      assert items[0] !in rest by {
        forall i | 0 <= i < |rest| ensures rest[i] != items[0] {
          assert rest[i] == items[i + 1];
        }
      }
      ToggleEachOthers(rest, c', items[0]);
      forall i | 0 <= i < |items| ensures IsChecked(ToggleEach(items, c), items[i]) {
        if i > 0 { assert items[i] == rest[i - 1]; }
      }
    }
  }

  /** The shipped list has ten distinct items, so ticking each once from
      the opening state gives ALL CLEAR. */
  lemma PreflightClears()
    ensures AllChecked(PreflightItems, ToggleEach(PreflightItems, map[]))
  {
    ToggleEachClears(PreflightItems, map[]);
  }
}

=== FILE: export.dfy ===
/** The mission exporters: the text each of GeoJSON, KML, CSV and the
    plain-text QGC WPL ("MAVLink") export writes, its file name and MIME
    type. How a JavaScript number is printed is the parameter `show`, and
    `JSON.stringify(_, null, 2)` is the parameter `stringify`; the
    download itself is not modelled. */
module Export {
  import opened Types
  import Text

  /** The four numbers every format records per waypoint. */
  datatype Fields = Fields(lat: real, lng: real, alt: real, speed: real)

  function FieldsOf(wp: Waypoint): Fields {
    Fields(wp.lat, wp.lng, wp.alt, wp.speed)
  }

  function AllFields(wps: seq<Waypoint>): (r: seq<Fields>)
    ensures |r| == |wps| && forall i :: 0 <= i < |wps| ==> r[i] == FieldsOf(wps[i])
  {
    seq(|wps|, i requires 0 <= i < |wps| => FieldsOf(wps[i]))
  }

  /** A number rendering that never emits a line break, a tab or a comma,
      which holds of JavaScript's number-to-string conversion. */
  ghost predicate Plain(show: real -> string) {
    forall x :: '\n' !in show(x) && '\t' !in show(x) && ',' !in show(x)
  }

  /** `read` recovers the rendering of each of the waypoint's four
      numbers. Only the numbers a mission holds are asked for: no reader
      can invert a rendering of every real, as there are more reals than
      strings. */
  ghost predicate ReadsBack(read: string -> real, show: real -> string, wp: Waypoint) {
    && read(show(wp.lat)) == wp.lat && read(show(wp.lng)) == wp.lng
    && read(show(wp.alt)) == wp.alt && read(show(wp.speed)) == wp.speed
  }

  /** `read` recovers every number the mission's waypoints hold. */
  ghost predicate ReadsMission(read: string -> real, show: real -> string, m: Mission) {
    forall i :: 0 <= i < |m.waypoints| ==> ReadsBack(read, show, m.waypoints[i])
  }

  /** Decodes consecutive records, numbering them from `k`. */
  function DecodeEach<R>(rows: seq<R>, k: nat, decode: (nat, R) -> Option<Fields>): (r: Option<seq<Fields>>)
    ensures r.Some? ==> |r.value| == |rows|
    decreases |rows|
  {
    if |rows| == 0 then Some([])
    else match decode(k, rows[0])
      case None => None
      case Some(f) =>
        match DecodeEach(rows[1..], k + 1, decode)
        case None => None
        case Some(fs) => Some([f] + fs)
  }

  lemma {:induction false} DecodeEachAll<R>(rows: seq<R>, k: nat, decode: (nat, R) -> Option<Fields>, fs: seq<Fields>)
    requires |rows| == |fs|
    requires forall j :: 0 <= j < |rows| ==> decode(k + j, rows[j]) == Some(fs[j])
    ensures DecodeEach(rows, k, decode) == Some(fs)
    decreases |rows|
  {
    if |rows| > 0 {
      assert decode(k + 0, rows[0]) == Some(fs[0]);
      forall j | 0 <= j < |rows[1..]| ensures decode(k + 1 + j, rows[1..][j]) == Some(fs[1..][j]) {
        assert decode(k + (j + 1), rows[j + 1]) == Some(fs[j + 1]);
      }
      DecodeEachAll(rows[1..], k + 1, decode, fs[1..]);
      assert [fs[0]] + fs[1..] == fs;
    }
  }

  /** Lines of a text made of a header line followed by `rows` joined with
      line breaks: an empty row list still leaves one empty line. */
  lemma HeaderAndRows(header: string, rows: seq<string>)
    ensures '\n' !in header && (forall i :: 0 <= i < |rows| ==> '\n' !in rows[i]) ==>
            Text.Split(header + "\n" + Text.Join(rows, '\n'), '\n')
            == [header] + (if |rows| == 0 then [""] else rows)
  {
    if '\n' !in header && (forall i :: 0 <= i < |rows| ==> '\n' !in rows[i]) {
      Text.SplitAppend(header, '\n', Text.Join(rows, '\n'));
      Text.SplitNoSep(header, '\n');
      if |rows| > 0 {
        Text.SplitJoin(rows, '\n');
      }
    }
  }

  // ---------------------------------------------------------------------
  // CSV
  // ---------------------------------------------------------------------

  const CsvHeader: string := "waypoint,latitude,longitude,altitude_m,speed_m/s"

  /** The cells of row `i`: one-based number, then the four fields. */
  function CsvCells(i: nat, wp: Waypoint, show: real -> string): seq<string> {
    [Text.NatToString(i + 1), show(wp.lat), show(wp.lng), show(wp.alt), show(wp.speed)]
  }

  function CsvRow(i: nat, wp: Waypoint, show: real -> string): string {
    Text.Join(CsvCells(i, wp, show), ',')
  }

  function CsvRows(wps: seq<Waypoint>, show: real -> string): (rows: seq<string>)
    ensures |rows| == |wps| && forall i :: 0 <= i < |wps| ==> rows[i] == CsvRow(i, wps[i], show)
  {
    seq(|wps|, i requires 0 <= i < |wps| => CsvRow(i, wps[i], show))
  }

  /** The CSV text: the header line, then one line per waypoint, in order
      (a mission without waypoints leaves a single empty line), whenever
      numbers are rendered without line breaks, tabs or commas. */
  function CsvContent(m: Mission, show: real -> string): (c: string)
    ensures Plain(show) ==>
              Text.Split(c, '\n') == [CsvHeader] + (if |m.waypoints| == 0 then [""] else CsvRows(m.waypoints, show))
  {
    var rows := CsvRows(m.waypoints, show);
    CsvRowsNoBreak(m.waypoints, show);
    CsvHeaderNoBreak();
    HeaderAndRows(CsvHeader, rows);
    CsvHeader + "\n" + Text.Join(rows, '\n')
  }

  lemma CsvHeaderNoBreak()
    ensures '\n' !in CsvHeader
  {
    assert CsvHeader == "waypoint,latitude,longitude," + "altitude_m,speed_m/s";
  }

  lemma CsvRowsNoBreak(wps: seq<Waypoint>, show: real -> string)
    ensures Plain(show) ==> forall i :: 0 <= i < |wps| ==> '\n' !in CsvRow(i, wps[i], show)
  {
    if Plain(show) {
      forall i | 0 <= i < |wps| ensures '\n' !in CsvRow(i, wps[i], show) {
        Text.NatToStringNoSep(i + 1, '\n');
        JoinKeepsOut(CsvCells(i, wps[i], show), ',', '\n');
      }
    }
  }

  /** A CSV row splits at commas into its five cells. */
  lemma CsvRowCells(i: nat, wp: Waypoint, show: real -> string)
    requires Plain(show)
    ensures Text.Split(CsvRow(i, wp, show), ',') == CsvCells(i, wp, show)
  {
    Text.NatToStringNoSep(i + 1, ',');
    Text.SplitJoin(CsvCells(i, wp, show), ',');
  }

  function DecodeCsvRow(k: nat, row: string, read: string -> real): Option<Fields> {
    var cells := Text.Split(row, ',');
    if |cells| == 5 && cells[0] == Text.NatToString(k + 1) then
      Some(Fields(read(cells[1]), read(cells[2]), read(cells[3]), read(cells[4])))
    else None
  }

  /** Reads a CSV export back: the header, then one numbered row each. */
  function DecodeCsv(content: string, read: string -> real): Option<seq<Fields>> {
    var lines := Text.Split(content, '\n');
    if lines[0] != CsvHeader then None
    else if lines[1..] == [""] then Some([])
    else DecodeEach(lines[1..], 0, (k: nat, row: string) => DecodeCsvRow(k, row, read))
  }

  /** The CSV export loses nothing: reading it back gives every waypoint's
      latitude, longitude, altitude and speed, in order. */
  lemma CsvRoundTrip(m: Mission, show: real -> string, read: string -> real)
    requires Plain(show) && ReadsMission(read, show, m)
    ensures DecodeCsv(CsvContent(m, show), read) == Some(AllFields(m.waypoints))
  {
    var wps := m.waypoints;
    var rows := CsvRows(wps, show);
    if |rows| > 0 {
      CsvRowDecodes(0, wps[0], show, read);
      var decode := (k: nat, row: string) => DecodeCsvRow(k, row, read);
      forall j | 0 <= j < |rows| ensures decode(0 + j, rows[j]) == Some(AllFields(wps)[j]) {
        CsvRowDecodes(j, wps[j], show, read);
      }
      DecodeEachAll(rows, 0, decode, AllFields(wps));
    }
  }

  /** Row `i` reads back as its waypoint's fields, and is not empty. */
  lemma CsvRowDecodes(i: nat, wp: Waypoint, show: real -> string, read: string -> real)
    requires Plain(show) && ReadsBack(read, show, wp)
    ensures DecodeCsvRow(i, CsvRow(i, wp, show), read) == Some(FieldsOf(wp))
    ensures CsvRow(i, wp, show) != ""
  {
    CsvRowCells(i, wp, show);
  }

  // ---------------------------------------------------------------------
  // QGC WPL 110 text ("MAVLink" export)
  // ---------------------------------------------------------------------

  const WplHeader: string := "QGC WPL 110"

  /** MAV_CMD_NAV_WAYPOINT; the first row is special-cased in the exporter
      but receives the same command. */
  function WplCommand(index: nat): (c: nat)
    ensures c == 16
  {
    if index == 0 then 16 else 16
  }

  /** The twelve tab-separated cells of row `i`: index, current flag 0,
      frame 3, command, param1 0, param2 = speed, params 3-4 = 0, latitude,
      longitude, altitude, autocontinue 1. */
  function WplCells(i: nat, wp: Waypoint, show: real -> string): seq<string> {
    [Text.NatToString(i), "0", "3", Text.NatToString(WplCommand(i)), "0", show(wp.speed),
     "0", "0", show(wp.lat), show(wp.lng), show(wp.alt), "1"]
  }

  function WplRow(i: nat, wp: Waypoint, show: real -> string): string {
    Text.Join(WplCells(i, wp, show), '\t')
  }

  function WplRows(wps: seq<Waypoint>, show: real -> string): (rows: seq<string>)
    ensures |rows| == |wps| && forall i :: 0 <= i < |wps| ==> rows[i] == WplRow(i, wps[i], show)
  {
    seq(|wps|, i requires 0 <= i < |wps| => WplRow(i, wps[i], show))
  }

  /** The WPL text: the format header line, then one line per waypoint,
      in order, whenever numbers are rendered without line breaks, tabs or
      commas. */
  function WplContent(m: Mission, show: real -> string): (c: string)
    ensures Plain(show) ==>
              Text.Split(c, '\n') == [WplHeader] + (if |m.waypoints| == 0 then [""] else WplRows(m.waypoints, show))
  {
    var rows := WplRows(m.waypoints, show);
    WplRowsNoBreak(m.waypoints, show);
    HeaderAndRows(WplHeader, rows);
    WplHeader + "\n" + Text.Join(rows, '\n')
  }

  lemma WplRowsNoBreak(wps: seq<Waypoint>, show: real -> string)
    ensures Plain(show) ==> forall i :: 0 <= i < |wps| ==> '\n' !in WplRow(i, wps[i], show)
  {
    if Plain(show) {
      forall i | 0 <= i < |wps| ensures '\n' !in WplRow(i, wps[i], show) {
        var cells := WplCells(i, wps[i], show);
        Text.NatToStringNoSep(i, '\n');
        Text.NatToStringNoSep(16, '\n');
        assert forall c :: 0 <= c < |cells| ==> '\n' !in cells[c];
        JoinKeepsOut(cells, '\t', '\n');
      }
    }
  }

  /** Every WPL row has twelve tab-separated cells: zero-based index first,
      frame 3, command 16, speed sixth, then latitude, longitude, altitude
      and a final 1. */
  lemma WplRowCells(i: nat, wp: Waypoint, show: real -> string)
    requires Plain(show)
    ensures var cells := Text.Split(WplRow(i, wp, show), '\t');
            && |cells| == 12
            && cells[0] == Text.NatToString(i)
            && cells[2] == "3" && cells[3] == "16"
            && cells[5] == show(wp.speed)
            && cells[8] == show(wp.lat) && cells[9] == show(wp.lng) && cells[10] == show(wp.alt)
            && cells[11] == "1"
  {
    Text.NatToStringNoSep(i, '\t');
    Text.NatToStringNoSep(16, '\t');
    assert Text.NatToString(16) == "16";
    Text.SplitJoin(WplCells(i, wp, show), '\t');
  }

  /** Joining with one separator introduces no other character. */
  lemma {:induction false} JoinKeepsOut(parts: seq<string>, sep: char, c: char)
    requires c != sep
    requires forall i :: 0 <= i < |parts| ==> c !in parts[i]
    ensures c !in Text.Join(parts, sep)
    decreases |parts|
  {
    if |parts| > 1 {
      JoinKeepsOut(parts[1..], sep, c);
    }
  }

  function DecodeWplRow(k: nat, row: string, read: string -> real): Option<Fields> {
    var cells := Text.Split(row, '\t');
    if |cells| == 12 && cells[0] == Text.NatToString(k) then
      Some(Fields(read(cells[8]), read(cells[9]), read(cells[10]), read(cells[5])))
    else None
  }

  function DecodeWpl(content: string, read: string -> real): Option<seq<Fields>> {
    var lines := Text.Split(content, '\n');
    if lines[0] != WplHeader then None
    else if lines[1..] == [""] then Some([])
    else DecodeEach(lines[1..], 0, (k: nat, row: string) => DecodeWplRow(k, row, read))
  }

  /** The WPL export loses nothing of latitude, longitude, altitude and
      speed. */
  lemma WplRoundTrip(m: Mission, show: real -> string, read: string -> real)
    requires Plain(show) && ReadsMission(read, show, m)
    ensures DecodeWpl(WplContent(m, show), read) == Some(AllFields(m.waypoints))
  {
    var wps := m.waypoints;
    var rows := WplRows(wps, show);
    if |rows| > 0 {
      WplRowDecodes(0, wps[0], show, read);
      var decode := (k: nat, row: string) => DecodeWplRow(k, row, read);
      forall j | 0 <= j < |rows| ensures decode(0 + j, rows[j]) == Some(AllFields(wps)[j]) {
        WplRowDecodes(j, wps[j], show, read);
      }
      DecodeEachAll(rows, 0, decode, AllFields(wps));
    }
  }

  /** Row `i` reads back as its waypoint's fields, and is not empty. */
  lemma WplRowDecodes(i: nat, wp: Waypoint, show: real -> string, read: string -> real)
    requires Plain(show) && ReadsBack(read, show, wp)
    ensures DecodeWplRow(i, WplRow(i, wp, show), read) == Some(FieldsOf(wp))
    ensures WplRow(i, wp, show) != ""
  {
    WplRowCells(i, wp, show);
  }

  // ---------------------------------------------------------------------
  // KML
  // ---------------------------------------------------------------------

  /** `lng,lat,alt`: KML writes longitude first. */
  function KmlTriple(wp: Waypoint, show: real -> string): string {
    Text.Join([show(wp.lng), show(wp.lat), show(wp.alt)], ',')
  }

  lemma KmlTripleOrder(wp: Waypoint, show: real -> string)
    requires Plain(show)
    ensures Text.Split(KmlTriple(wp, show), ',') == [show(wp.lng), show(wp.lat), show(wp.alt)]
  {
    Text.SplitJoin([show(wp.lng), show(wp.lat), show(wp.alt)], ',');
  }

  /** One line `<tag>body</tag>` after the given indentation. */
  function Element(indent: string, tag: string, body: string): string {
    indent + "<" + tag + ">" + body + "</" + tag + ">"
  }

  const KmlIconUrl: string := "http://maps.google.com/" + "mapfiles/kml/paddle/" + "wht-blank.png"

  /** The document's opening lines, up to the path's `<coordinates>`: the
      prolog with the mission's name, the waypoint icon style and the
      opening of the path placemark. */
  function KmlHead(name: string): (lines: seq<string>)
    ensures |lines| == 19
  {
    KmlProlog(name) + KmlIconStyle + KmlPathOpen
  }

  function KmlProlog(name: string): seq<string> {
    [ "<?xml version=\"1.0\"" + " encoding=\"UTF-8\"?>",
      "<kml xmlns=" + "\"http://www.opengis.net/" + "kml/2.2\">",
      "  <Document>",
      Element("    ", "name", name) ]
  }

  const KmlIconStyle: seq<string> :=
    [ "    <Style id=" + "\"waypoint\">",
      "      <IconStyle>",
      "        <Icon>",
      Element("          ", "href", KmlIconUrl),
      "        </Icon>",
      "      </IconStyle>",
      "    </Style>" ]

  const KmlPathOpen: seq<string> :=
    [ "    <Placemark>",
      Element("      ", "name", "Mission Path"),
      Element("      ", "styleUrl", "#lineStyle"),
      "      <LineString>",
      Element("        ", "extrude", "1"),
      Element("        ", "tessellate", "1"),
      Element("        ", "altitudeMode", "absolute"),
      "        <coordinates>" ]

  const KmlIndent: string := "          "

  /** The path's coordinate lines: the triples joined by a line break and
      the indentation, after one leading indentation. Without waypoints the
      single line holds the indentation only. */
  function KmlPathLines(wps: seq<Waypoint>, show: real -> string): (lines: seq<string>)
    ensures |lines| == if |wps| == 0 then 1 else |wps|
  {
    if |wps| == 0 then [KmlIndent]
    else seq(|wps|, i requires 0 <= i < |wps| => KmlIndent + KmlTriple(wps[i], show))
  }

  /** The lines that close the path placemark; the last one is the
      indentation before the waypoint placemarks. */
  const KmlPathTail: seq<string> := ["        </coordinates>", "      </LineString>", "    </Placemark>", "    "]

  /** The eight lines of waypoint `i`'s placemark. */
  function KmlPlacemark(i: nat, wp: Waypoint, show: real -> string): (lines: seq<string>)
    ensures |lines| == 8
  {
    [ "    <Placemark>",
      Element("      ", "name", "WP " + Text.NatToString(i + 1)),
      Element("      ", "styleUrl", "#waypoint"),
      "      <Point>",
      Element("        ", "altitudeMode", "absolute"),
      Element("        ", "coordinates", KmlTriple(wp, show)),
      "      </Point>",
      "    </Placemark>" ]
  }

  function KmlPlacemarks(wps: seq<Waypoint>, show: real -> string): (lines: seq<string>)
    ensures |lines| == 8 * |wps|
    decreases |wps|
  {
    if |wps| == 0 then []
    else KmlPlacemarks(wps[..|wps| - 1], show) + KmlPlacemark(|wps| - 1, wps[|wps| - 1], show)
  }

  const KmlTail: seq<string> := ["  </Document>", "</kml>"]

  function KmlLines(m: Mission, show: real -> string): seq<string> {
    KmlHead(m.name) + KmlPathLines(m.waypoints, show) + KmlPathTail + KmlPlacemarks(m.waypoints, show) + KmlTail
  }

  /** The KML text: breaking it at line breaks gives back exactly its
      lines, provided numbers render without line breaks and the mission
      name has none of its own. */
  function KmlContent(m: Mission, show: real -> string): (c: string)
    ensures Plain(show) && '\n' !in m.name ==> Text.Split(c, '\n') == KmlLines(m, show)
  {
    KmlLinesSplit(m, show);
    Text.Join(KmlLines(m, show), '\n')
  }

  /** Line `8i + j` of the placemark block is line `j` of waypoint `i`'s
      placemark. */
  lemma {:induction false} KmlPlacemarkLine(wps: seq<Waypoint>, show: real -> string, i: nat, j: nat)
    requires i < |wps| && j < 8
    ensures KmlPlacemarks(wps, show)[8 * i + j] == KmlPlacemark(i, wps[i], show)[j]
    decreases |wps|
  {
    var init := wps[..|wps| - 1];
    if i < |wps| - 1 {
      KmlPlacemarkLine(init, show, i, j);
      assert init[i] == wps[i];
    }
  }

  /** The document splits into its fixed head, the path lines, the path's
      closing lines, the placemark block and the closing tags. */
  lemma KmlLineOffsets(m: Mission, show: real -> string, k: nat)
    requires k < 8 * |m.waypoints|
    ensures var c := |KmlPathLines(m.waypoints, show)|;
            |KmlLines(m, show)| == 19 + c + 4 + 8 * |m.waypoints| + 2
            && KmlLines(m, show)[19 + c + 4 + k] == KmlPlacemarks(m.waypoints, show)[k]
  {
    var head, path, places := KmlHead(m.name), KmlPathLines(m.waypoints, show), KmlPlacemarks(m.waypoints, show);
    var before := head + path + KmlPathTail;
    assert KmlLines(m, show) == before + places + KmlTail;
    assert (before + places + KmlTail)[|before| + k] == places[k];
  }

  /** Where each waypoint appears in the KML document: the path line of
      waypoint `i` is line 19 + i, and its placemark, named `WP i+1`, has
      the same coordinates, `c` being the number of waypoints. */
  lemma KmlWaypointLines(m: Mission, show: real -> string, i: nat)
    requires i < |m.waypoints|
    ensures var lines := KmlLines(m, show); var wp := m.waypoints[i];
            var c := |m.waypoints|;
            && |lines| == 19 + c + 4 + 8 * c + 2
            && lines[19 + i] == KmlIndent + KmlTriple(wp, show)
            && lines[19 + c + 4 + 8 * i] == "    <Placemark>"
            && lines[19 + c + 4 + 8 * i + 1] == Element("      ", "name", "WP " + Text.NatToString(i + 1))
            && lines[19 + c + 4 + 8 * i + 5] == Element("        ", "coordinates", KmlTriple(wp, show))
  {
    KmlPathLineAt(m, show, i);
    KmlPlacemarkLines(m, show, i);
  }

  /** The opening, name and coordinates lines of waypoint `i`'s placemark. */
  lemma KmlPlacemarkLines(m: Mission, show: real -> string, i: nat)
    requires i < |m.waypoints|
    ensures var lines := KmlLines(m, show); var wp := m.waypoints[i];
            var at := 19 + |m.waypoints| + 4 + 8 * i;
            && |lines| == 19 + |m.waypoints| + 4 + 8 * |m.waypoints| + 2
            && lines[at] == "    <Placemark>"
            && lines[at + 1] == Element("      ", "name", "WP " + Text.NatToString(i + 1))
            && lines[at + 5] == Element("        ", "coordinates", KmlTriple(wp, show))
  {
    var wp := m.waypoints[i];
    KmlPlacemarkFields(i, wp, show);
    KmlPlacemarkLineIs(m, show, i, 0, "    <Placemark>");
    KmlPlacemarkLineIs(m, show, i, 1, Element("      ", "name", "WP " + Text.NatToString(i + 1)));
    KmlPlacemarkLineIs(m, show, i, 5, Element("        ", "coordinates", KmlTriple(wp, show)));
  }

  lemma KmlPlacemarkLineIs(m: Mission, show: real -> string, i: nat, j: nat, line: string)
    requires i < |m.waypoints| && j < 8
    requires KmlPlacemark(i, m.waypoints[i], show)[j] == line
    ensures |KmlLines(m, show)| == 19 + |m.waypoints| + 4 + 8 * |m.waypoints| + 2
    ensures KmlLines(m, show)[19 + |m.waypoints| + 4 + 8 * i + j] == line
  {
    KmlPlacemarkAt(m, show, i, j);
  }

  /** The opening, name and coordinates lines of one placemark. */
  lemma KmlPlacemarkFields(i: nat, wp: Waypoint, show: real -> string)
    ensures var p := KmlPlacemark(i, wp, show);
            && p[0] == "    <Placemark>"
            && p[1] == Element("      ", "name", "WP " + Text.NatToString(i + 1))
            && p[5] == Element("        ", "coordinates", KmlTriple(wp, show))
  {
  }

  lemma KmlPlacemarkAt(m: Mission, show: real -> string, i: nat, j: nat)
    requires i < |m.waypoints| && j < 8
    ensures var c := |m.waypoints|;
            |KmlLines(m, show)| == 19 + c + 4 + 8 * c + 2
            && KmlLines(m, show)[19 + c + 4 + 8 * i + j] == KmlPlacemark(i, m.waypoints[i], show)[j]
  {
    KmlLineOffsets(m, show, 8 * i + j);
    KmlPlacemarkLine(m.waypoints, show, i, j);
  }

  lemma KmlPathLineAt(m: Mission, show: real -> string, i: nat)
    requires i < |m.waypoints|
    ensures KmlLines(m, show)[19 + i] == KmlIndent + KmlTriple(m.waypoints[i], show)
  {
    var head, path := KmlHead(m.name), KmlPathLines(m.waypoints, show);
    assert KmlLines(m, show) == head + path + (KmlPathTail + KmlPlacemarks(m.waypoints, show) + KmlTail);
    assert KmlLines(m, show)[19 + i] == path[i];
  }

  lemma KmlLinesSplit(m: Mission, show: real -> string)
    ensures Plain(show) && '\n' !in m.name ==>
              Text.Split(Text.Join(KmlLines(m, show), '\n'), '\n') == KmlLines(m, show)
  {
    if Plain(show) && '\n' !in m.name {
      KmlLinesSplitPlain(m, show);
    }
  }

  lemma KmlLinesSplitPlain(m: Mission, show: real -> string)
    requires Plain(show)
    requires '\n' !in m.name
    ensures Text.Split(Text.Join(KmlLines(m, show), '\n'), '\n') == KmlLines(m, show)
  {
    var lines := KmlLines(m, show);
    var wps := m.waypoints;
    forall i | 0 <= i < |wps| ensures '\n' !in KmlTriple(wps[i], show) {
      JoinKeepsOut([show(wps[i].lng), show(wps[i].lat), show(wps[i].alt)], ',', '\n');
    }
    forall k | 0 <= k < |lines| ensures '\n' !in lines[k] {
      KmlLineHasNoBreak(m, show, k);
    }
    Text.SplitJoin(lines, '\n');
  }

  /** No fixed line of the head breaks; the name line breaks only if the
      name does. */
  lemma KmlHeadNoBreak(name: string, k: nat)
    requires '\n' !in name
    requires k < 19
    ensures '\n' !in KmlHead(name)[k]
  {
    var prolog := KmlProlog(name);
    var head := prolog + KmlIconStyle + KmlPathOpen;
    assert KmlHead(name) == head;
    if k < 4 {
      assert head[k] == prolog[k];
      KmlPrologNoBreak(name, k);
    } else if k < 11 {
      assert head[k] == KmlIconStyle[k - 4];
      KmlIconStyleNoBreak(k - 4);
    } else {
      assert head[k] == KmlPathOpen[k - 11];
      KmlPathOpenNoBreak(k - 11);
    }
  }

  lemma KmlPrologNoBreak(name: string, k: nat)
    requires '\n' !in name
    requires k < 4
    ensures '\n' !in KmlProlog(name)[k]
  {
    var p := KmlProlog(name);
    if k == 0 {
      assert '\n' !in "<?xml version=\"1.0\"" && '\n' !in " encoding=\"UTF-8\"?>";
    } else if k == 1 {
      assert '\n' !in "<kml xmlns=" && '\n' !in "\"http://www.opengis.net/" && '\n' !in "kml/2.2\">";
    } else if k == 3 {
      ElementNoBreak("    ", "name", name);
    }
  }

  lemma KmlIconStyleNoBreak(k: nat)
    requires k < |KmlIconStyle|
    ensures '\n' !in KmlIconStyle[k]
  {
    if k == 3 {
      ElementNoBreak("          ", "href", KmlIconUrl);
    }
  }

  lemma KmlPathOpenNoBreak(k: nat)
    requires k < |KmlPathOpen|
    ensures '\n' !in KmlPathOpen[k]
  {
    if k == 1 {
      ElementNoBreak("      ", "name", "Mission Path");
    } else if k == 2 {
      ElementNoBreak("      ", "styleUrl", "#lineStyle");
    } else if k == 4 {
      ElementNoBreak("        ", "extrude", "1");
    } else if k == 5 {
      ElementNoBreak("        ", "tessellate", "1");
    } else if k == 6 {
      ElementNoBreak("        ", "altitudeMode", "absolute");
    }
  }

  lemma ElementNoBreak(indent: string, tag: string, body: string)
    requires '\n' !in indent && '\n' !in tag && '\n' !in body
    ensures '\n' !in Element(indent, tag, body)
  {
  }

  lemma KmlPlacemarkNoBreak(i: nat, wp: Waypoint, show: real -> string, j: nat)
    requires '\n' !in KmlTriple(wp, show)
    requires j < 8
    ensures '\n' !in KmlPlacemark(i, wp, show)[j]
  {
    if j == 1 {
      Text.NatToStringNoSep(i + 1, '\n');
      ElementNoBreak("      ", "name", "WP " + Text.NatToString(i + 1));
    } else if j == 2 {
      ElementNoBreak("      ", "styleUrl", "#waypoint");
    } else if j == 4 {
      ElementNoBreak("        ", "altitudeMode", "absolute");
    } else if j == 5 {
      ElementNoBreak("        ", "coordinates", KmlTriple(wp, show));
    }
  }

  /** Line `j` of waypoint `i`'s placemark, inside the whole document. */
  lemma KmlPlacemarkRegionNoBreak(m: Mission, show: real -> string, i: nat, j: nat)
    requires i < |m.waypoints| && j < 8
    requires '\n' !in KmlTriple(m.waypoints[i], show)
    ensures 19 + |m.waypoints| + 4 + 8 * i + j < |KmlLines(m, show)|
    ensures '\n' !in KmlLines(m, show)[19 + |m.waypoints| + 4 + 8 * i + j]
  {
    KmlPlacemarkAt(m, show, i, j);
    KmlPlacemarkNoBreak(i, m.waypoints[i], show, j);
  }

  lemma KmlHeadRegionNoBreak(m: Mission, show: real -> string, k: nat)
    requires '\n' !in m.name
    requires k < 19
    ensures k < |KmlLines(m, show)| && '\n' !in KmlLines(m, show)[k]
  {
    var head := KmlHead(m.name);
    var rest := KmlPathLines(m.waypoints, show) + KmlPathTail + KmlPlacemarks(m.waypoints, show) + KmlTail;
    assert KmlLines(m, show) == head + rest;
    assert (head + rest)[k] == head[k];
    KmlHeadNoBreak(m.name, k);
  }

  lemma KmlPathRegionNoBreak(m: Mission, show: real -> string, k: nat)
    requires forall i :: 0 <= i < |m.waypoints| ==> '\n' !in KmlTriple(m.waypoints[i], show)
    requires k < |KmlPathLines(m.waypoints, show)|
    ensures 19 + k < |KmlLines(m, show)| && '\n' !in KmlLines(m, show)[19 + k]
  {
    var head, path := KmlHead(m.name), KmlPathLines(m.waypoints, show);
    var rest := KmlPathTail + KmlPlacemarks(m.waypoints, show) + KmlTail;
    assert KmlLines(m, show) == (head + path) + rest;
    assert ((head + path) + rest)[19 + k] == path[k];
    if |m.waypoints| > 0 {
      assert path[k] == KmlIndent + KmlTriple(m.waypoints[k], show);
    }
  }

  lemma KmlPathTailRegionNoBreak(m: Mission, show: real -> string, k: nat)
    requires k < 4
    ensures var c := |KmlPathLines(m.waypoints, show)|;
            19 + c + k < |KmlLines(m, show)| && '\n' !in KmlLines(m, show)[19 + c + k]
  {
    var before := KmlHead(m.name) + KmlPathLines(m.waypoints, show);
    var rest := KmlPlacemarks(m.waypoints, show) + KmlTail;
    assert KmlLines(m, show) == before + KmlPathTail + rest;
    assert (before + KmlPathTail + rest)[|before| + k] == KmlPathTail[k];
  }

  lemma KmlTailRegionNoBreak(m: Mission, show: real -> string, k: nat)
    requires k < 2
    ensures var c := |KmlPathLines(m.waypoints, show)|;
            var at := 19 + c + 4 + 8 * |m.waypoints| + k;
            at < |KmlLines(m, show)| && '\n' !in KmlLines(m, show)[at]
  {
    var before := KmlHead(m.name) + KmlPathLines(m.waypoints, show) + KmlPathTail + KmlPlacemarks(m.waypoints, show);
    assert KmlLines(m, show) == before + KmlTail;
    assert (before + KmlTail)[|before| + k] == KmlTail[k];
  }

  lemma KmlLineHasNoBreak(m: Mission, show: real -> string, k: nat)
    requires '\n' !in m.name
    requires forall i :: 0 <= i < |m.waypoints| ==> '\n' !in KmlTriple(m.waypoints[i], show)
    requires k < |KmlLines(m, show)|
    ensures '\n' !in KmlLines(m, show)[k]
  {
    var n := |m.waypoints|;
    var c := |KmlPathLines(m.waypoints, show)|;
    if k < 19 {
      KmlHeadRegionNoBreak(m, show, k);
    } else if k < 19 + c {
      KmlPathRegionNoBreak(m, show, k - 19);
    } else if k < 19 + c + 4 {
      KmlPathTailRegionNoBreak(m, show, k - 19 - c);
    } else if k < 19 + c + 4 + 8 * n {
      var off := k - 19 - c - 4;
      var i, j := off / 8, off % 8;
      assert k == 19 + n + 4 + 8 * i + j;
      KmlPlacemarkRegionNoBreak(m, show, i, j);
    } else {
      KmlTailRegionNoBreak(m, show, k - 19 - c - 4 - 8 * n);
    }
  }

  // ---------------------------------------------------------------------
  // GeoJSON
  // ---------------------------------------------------------------------

  /** A JSON value; objects keep their keys in insertion order. */
  datatype Json =
    | JNull
    | JBool(b: bool)
    | JNumber(n: real)
    | JString(s: string)
    | JArray(items: seq<Json>)
    | JObject(members: seq<(string, Json)>)

  /** The value under `key` in an object (the first one, as keys written
      here are unique). */
  function Get(j: Json, key: string): Option<Json> {
    if !j.JObject? then None else Lookup(j.members, key)
  }

  function Lookup(members: seq<(string, Json)>, key: string): Option<Json>
    decreases |members|
  {
    if |members| == 0 then None
    else if members[0].0 == key then Some(members[0].1)
    else Lookup(members[1..], key)
  }

  /** The first member with the key is the one found. */
  lemma {:induction false} LookupAt(members: seq<(string, Json)>, key: string, k: nat)
    requires k < |members| && members[k].0 == key
    requires forall j :: 0 <= j < k ==> members[j].0 != key
    ensures Lookup(members, key) == Some(members[k].1)
    decreases k
  {
    if k > 0 {
      LookupAt(members[1..], key, k - 1);
    }
  }

  /** `[lng, lat, alt]`. */
  function Position(wp: Waypoint): Json {
    JArray([JNumber(wp.lng), JNumber(wp.lat), JNumber(wp.alt)])
  }

  function PathFeature(m: Mission): Json {
    JObject([
      ("type", JString("Feature")),
      ("properties", JObject([("name", JString(m.name + " - Path"))])),
      ("geometry", JObject([
        ("type", JString("LineString")),
        ("coordinates", JArray(seq(|m.waypoints|, i requires 0 <= i < |m.waypoints| => Position(m.waypoints[i]))))]))])
  }

  function PointFeature(i: nat, wp: Waypoint): Json {
    JObject([
      ("type", JString("Feature")),
      ("properties", JObject([
        ("name", JString("WP " + Text.NatToString(i + 1))),
        ("altitude", JNumber(wp.alt)),
        ("speed", JNumber(wp.speed))])),
      ("geometry", JObject([
        ("type", JString("Point")),
        ("coordinates", Position(wp))]))])
  }

  /** The collection: typed `FeatureCollection`, with one more feature
      than waypoints, the first being the path, a LineString through
      `[lng, lat, alt]` of every waypoint in order. */
  function GeoJson(m: Mission): (g: Json)
    ensures Get(g, "type") == Some(JString("FeatureCollection"))
    ensures Features(g).Some?
    ensures var fs := Features(g).value;
            && |fs| == |m.waypoints| + 1
            && Get(fs[0], "geometry").Some?
            && Get(Get(fs[0], "geometry").value, "type") == Some(JString("LineString"))
            && Get(Get(fs[0], "geometry").value, "coordinates")
               == Some(JArray(seq(|m.waypoints|, i requires 0 <= i < |m.waypoints| => Position(m.waypoints[i]))))
  {
    var path := PathFeature(m);
    var g := JObject([
      ("type", JString("FeatureCollection")),
      ("features", JArray([path] +
        seq(|m.waypoints|, i requires 0 <= i < |m.waypoints| => PointFeature(i, m.waypoints[i]))))]);
    LookupAt(g.members, "type", 0);
    LookupAt(g.members, "features", 1);
    LookupAt(path.members, "geometry", 2);
    LookupAt(path.members[2].1.members, "type", 0);
    LookupAt(path.members[2].1.members, "coordinates", 1);
    g
  }

  /** The features of a collection, if it has any. */
  function Features(j: Json): Option<seq<Json>> {
    match Get(j, "features")
    case Some(JArray(fs)) => Some(fs)
    case _ => None
  }

  /** Reads `[lng, lat, alt]`. */
  function DecodePosition(j: Json): Option<(real, real, real)> {
    if j.JArray? && |j.items| == 3 && j.items[0].JNumber? && j.items[1].JNumber? && j.items[2].JNumber? then
      Some((j.items[0].n, j.items[1].n, j.items[2].n))
    else None
  }

  /** Reads waypoint `k`'s point feature: its name, coordinates and speed. */
  function DecodePoint(k: nat, f: Json): Option<Fields> {
    match (Get(f, "properties"), Get(f, "geometry"))
    case (Some(props), Some(geom)) =>
      (match (Get(props, "name"), Get(props, "speed"), Get(geom, "type"), Get(geom, "coordinates"))
       case (Some(JString(name)), Some(JNumber(speed)), Some(JString(kind)), Some(coords)) =>
         (match DecodePosition(coords)
          case Some((lng, lat, alt)) =>
            if name == "WP " + Text.NatToString(k + 1) && kind == "Point" then Some(Fields(lat, lng, alt, speed))
            else None
          case None => None)
       case _ => None)
    case _ => None
  }

  /** Reads a GeoJSON export back from its point features. */
  function DecodeGeoJson(j: Json): Option<seq<Fields>> {
    match Features(j)
    case Some(fs) => if |fs| == 0 then None else DecodeEach(fs[1..], 0, DecodePoint)
    case None => None
  }

  /** Waypoint `i`'s point feature reads back as that waypoint. */
  lemma DecodePointFeature(i: nat, wp: Waypoint)
    ensures DecodePoint(i, PointFeature(i, wp)) == Some(FieldsOf(wp))
  {
    var f := PointFeature(i, wp);
    LookupAt(f.members, "properties", 1);
    LookupAt(f.members, "geometry", 2);
    var props := f.members[1].1;
    var geom := f.members[2].1;
    LookupAt(props.members, "name", 0);
    LookupAt(props.members, "speed", 2);
    LookupAt(geom.members, "type", 0);
    LookupAt(geom.members, "coordinates", 1);
  }

  /** The GeoJSON export loses nothing: its point features, named `WP 1`,
      `WP 2`, ..., give back every waypoint's fields in order. */
  lemma GeoJsonRoundTrip(m: Mission)
    ensures DecodeGeoJson(GeoJson(m)) == Some(AllFields(m.waypoints))
  {
    var wps := m.waypoints;
    var g := GeoJson(m);
    LookupAt(g.members, "features", 1);
    var fs := Features(g).value;
    var points := fs[1..];
    assert |points| == |wps|;
    forall k | 0 <= k < |points| ensures DecodePoint(0 + k, points[k]) == Some(AllFields(wps)[k]) {
      assert points[k] == PointFeature(k, wps[k]);
      DecodePointFeature(k, wps[k]);
    }
    DecodeEachAll(points, 0, DecodePoint, AllFields(wps));
  }

  // ---------------------------------------------------------------------
  // Files
  // ---------------------------------------------------------------------

  datatype Format = GeoJSON | KML | CSV | MAVLink | PDF

  datatype Download = Download(filename: string, content: string, mimeType: string)

  /** What pressing an export button produces: a file, and an alert. */
  datatype Outcome = Outcome(download: Option<Download>, alert: Option<string>)

  const MavlinkNotice: string := "MAVLink export is a simplified text representation. For real flights, use specialized software."
  const PdfNotice: string := "PDF export is a planned feature. For now, please use the other export formats."

  function Extension(f: Format): string
    requires !f.PDF?
  {
    match f
    case GeoJSON => ".geojson"
    case KML => ".kml"
    case CSV => ".csv"
    case MAVLink => ".txt"
  }

  function Export(m: Mission, f: Format, show: real -> string, stringify: Json -> string): (o: Outcome)
    ensures o.download.None? <==> f.PDF?
    ensures o.download.Some? ==> o.download.value.filename == m.name + Extension(f)
    ensures f.CSV? ==> o.download.value.content == CsvContent(m, show)
    ensures f.MAVLink? ==> o.download.value.content == WplContent(m, show)
    ensures f.KML? ==> o.download.value.content == KmlContent(m, show)
    ensures f.GeoJSON? ==> o.download.value.content == stringify(GeoJson(m))
    ensures o.alert.Some? <==> (f.MAVLink? || f.PDF?)
  {
    match f
    case GeoJSON => Outcome(Some(Download(m.name + ".geojson", stringify(GeoJson(m)), "application/geo+json")), None)
    case KML => Outcome(Some(Download(m.name + ".kml", KmlContent(m, show), "application/vnd.google-earth.kml+xml")), None)
    case CSV => Outcome(Some(Download(m.name + ".csv", CsvContent(m, show), "text/csv")), None)
    case MAVLink => Outcome(Some(Download(m.name + ".txt", WplContent(m, show), "text/plain")), Some(MavlinkNotice))
    case PDF => Outcome(None, Some(PdfNotice))
  }

  /** The four file-producing formats give four different file names for
      the same mission. */
  lemma FilenamesDistinct(m: Mission, f: Format, g: Format, show: real -> string, stringify: Json -> string)
    requires !f.PDF? && !g.PDF? && f != g
    ensures Export(m, f, show, stringify).download.value.filename != Export(m, g, show, stringify).download.value.filename
  {
    var a := m.name + Extension(f);
    var b := m.name + Extension(g);
    assert a[|m.name|..] == Extension(f);
    assert b[|m.name|..] == Extension(g);
  }
}

=== FILE: header.dfy ===
/** The status bar: colour thresholds for altitude, battery and signal,
    and the choice between the live read-out and STANDBY. */
module HeaderStatus {
  import opened Types
  import TelemetrySim

  /** The text colours the status bar uses. */
  datatype Tone = Red | Green | Orange

  /** Altitudes below 20 m or above the 120 m ceiling are unsafe: the
      safe band is closed at both ends. */
  function AltitudeTone(altitude: real): (t: Tone)
    ensures t == Red || t == Green
    ensures t == Green <==> 20.0 <= altitude <= 120.0
  {
    if altitude < 20.0 || altitude > 120.0 then Red else Green
  }

  /** The battery is shown red at 20 % and below: the threshold is
      strict. */
  function BatteryTone(battery: real): (t: Tone)
    ensures t == Red || t == Green
    ensures t == Green <==> battery > 20.0
  {
    if battery > 20.0 then Green else Red
  }

  /** The signal is shown orange at 50 % and below. */
  function SignalTone(signal: real): (t: Tone)
    ensures t == Orange || t == Green
    ensures t == Green <==> signal > 50.0
  {
    if signal > 50.0 then Green else Orange
  }

  /** What the status bar shows. */
  datatype Display =
    | Standby
    | Readout(telemetry: Telemetry, altitude: Tone, battery: Tone, signal: Tone)

  function Show(isSimulating: bool, telemetry: Option<Telemetry>): (d: Display)
    ensures d.Readout? <==> isSimulating && telemetry.Some?
    ensures d.Readout? ==> d.telemetry == telemetry.value
    ensures d.Readout? ==> && d.altitude == AltitudeTone(d.telemetry.alt)
                           && d.battery == BatteryTone(d.telemetry.battery)
                           && d.signal == SignalTone(d.telemetry.signal)
  {
    if isSimulating && telemetry.Some? then
      var t := telemetry.value;
      Readout(t, AltitudeTone(t.alt), BatteryTone(t.battery), SignalTone(t.signal))
    else Standby
  }

  /** The simulator never produces a red battery or an orange signal:
      the start snapshot and every tick stay above both thresholds. */
  lemma SimulatedLinkAlwaysGreen(s: TelemetrySim.SimState, wps: seq<Waypoint>,
                                 h: TelemetrySim.Draw, g: TelemetrySim.Draw)
    requires |wps| > 0
    ensures var d := Show(true, TelemetrySim.StartSimulation(s, wps).state.telemetry);
            d.Readout? && d.battery == Green && d.signal == Green
    ensures var t := TelemetrySim.Tick(s, wps, h, g);
            t.isSimulating ==> var d := Show(t.isSimulating, t.telemetry);
            d.Readout? && d.battery == Green && d.signal == Green
  {
  }

  /** After stop the status bar shows STANDBY. */
  lemma StoppedShowsStandby(s: TelemetrySim.SimState)
    ensures var r := TelemetrySim.StopSimulation(s); Show(r.isSimulating, r.telemetry) == Standby
  {
  }
}

=== FILE: mapcanvas.dfy ===
/** The mock map: a click at pixel (x, y) of a w-by-h canvas becomes a
    latitude/longitude, and a latitude/longitude is drawn at a percentage
    offset from the canvas's top-left corner. Both maps are affine. */
module MapCanvas {
  import opened Types

  /** The CSS position of a marker, in percent of the canvas size. */
  datatype Position = Position(top: real, left: real)

  /** The point a click at (x, y) denotes. */
  function ClickToLatLng(x: real, y: real, w: real, h: real): (p: LatLng)
    requires w > 0.0 && h > 0.0
    ensures 0.0 <= y <= h ==> 34.0522 - 0.1 <= p.lat <= 34.0522
    ensures 0.0 <= x <= w ==> -118.2437 <= p.lng <= -118.2437 + 0.2
  {
    LatLng(34.0522 - (y / h) * 0.1, -118.2437 + (x / w) * 0.2)
  }

  /** Where a point is drawn. */
  function PositionOf(lat: real, lng: real): (pos: Position)
    ensures lat == 34.1022 ==> pos.top == 0.0
    ensures lng == -118.3437 ==> pos.left == 0.0
  {
    Position(((34.1022 - lat) / 0.1) * 100.0, ((lng - -118.3437) / 0.2) * 100.0)
  }

  /** The point drawn at a position: the inverse of `PositionOf`. */
  function LatLngAt(pos: Position): (p: LatLng)
  {
    LatLng(34.1022 - pos.top / 100.0 * 0.1, -118.3437 + pos.left / 100.0 * 0.2)
  }

  lemma PositionRoundTrip(lat: real, lng: real, pos: Position)
    ensures LatLngAt(PositionOf(lat, lng)) == LatLng(lat, lng)
    ensures PositionOf(LatLngAt(pos).lat, LatLngAt(pos).lng) == pos
  {
  }

  /** North is up and east is right: the top offset falls as latitude
      rises, the left offset rises with longitude. */
  lemma PositionMonotone(lat1: real, lng1: real, lat2: real, lng2: real)
    ensures lat1 < lat2 ==> PositionOf(lat1, lng1).top > PositionOf(lat2, lng2).top
    ensures lng1 < lng2 ==> PositionOf(lat1, lng1).left < PositionOf(lat2, lng2).left
  {
  }

  /** A waypoint placed by a click is drawn half a canvas below and to the
      right of the click: the click map is centred on Los Angeles while the
      drawing map starts 0.05 degrees north and 0.1 degrees west of it. */
  lemma ClickIsDrawnShifted(x: real, y: real, w: real, h: real)
    requires w > 0.0 && h > 0.0
    ensures var p := ClickToLatLng(x, y, w, h);
            PositionOf(p.lat, p.lng) == Position(50.0 + 100.0 * y / h, 50.0 + 100.0 * x / w)
  {
  }

  /** A vertex of the path polyline: the marker's percentages scaled to
      the canvas's pixel size, so that the vertex lies under the marker and
      the drawing map's top-left and bottom-right corners land on the
      canvas's corners. */
  function PolylinePoint(lat: real, lng: real, w: real, h: real): (pt: (real, real))
    ensures w > 0.0 && h > 0.0 ==> Position(pt.1 / h * 100.0, pt.0 / w * 100.0) == PositionOf(lat, lng)
    ensures lat == 34.1022 && lng == -118.3437 ==> pt == (0.0, 0.0)
    ensures lat == 34.0022 && lng == -118.1437 ==> pt == (w, h)
  {
    var pos := PositionOf(lat, lng);
    (pos.left / 100.0 * w, pos.top / 100.0 * h)
  }

  /** In pixels, the shift is exactly half the canvas: a click at (x, y)
      puts its polyline vertex at (x + w/2, y + h/2). */
  lemma ClickedVertexShiftedHalfCanvas(x: real, y: real, w: real, h: real)
    requires w > 0.0 && h > 0.0
    ensures var p := ClickToLatLng(x, y, w, h);
            PolylinePoint(p.lat, p.lng, w, h) == (x + w / 2.0, y + h / 2.0)
  {
    ClickIsDrawnShifted(x, y, w, h);
    var p := ClickToLatLng(x, y, w, h);
    var pos := PositionOf(p.lat, p.lng);
    assert (x / w) * w == x && (y / h) * h == y;
    assert pos.left / 100.0 * w == 0.5 * w + (x / w) * w;
    assert pos.top / 100.0 * h == 0.5 * h + (y / h) * h;
    assert PolylinePoint(p.lat, p.lng, w, h).0 == pos.left / 100.0 * w == x + w / 2.0;
    assert PolylinePoint(p.lat, p.lng, w, h).1 == pos.top / 100.0 * h == y + h / 2.0;
  }

  /** The path is drawn only when there is more than one waypoint. */
  function PathVertices(wps: seq<Waypoint>, w: real, h: real): (r: Option<seq<(real, real)>>)
    ensures r.Some? <==> |wps| > 1
    ensures r.Some? ==> |r.value| == |wps|
    ensures r.Some? ==> forall i :: 0 <= i < |wps| ==> r.value[i] == PolylinePoint(wps[i].lat, wps[i].lng, w, h)
  {
    if |wps| > 1 then Some(seq(|wps|, i requires 0 <= i < |wps| => PolylinePoint(wps[i].lat, wps[i].lng, w, h)))
    else None
  }

  /** A click in the lower-right quarter of the canvas places a marker the
      canvas does not show: the bottom-right corner is drawn at 150 %. */
  lemma CornerClickDrawnOffCanvas(w: real, h: real)
    requires w > 0.0 && h > 0.0
    ensures var p := ClickToLatLng(w, h, w, h);
            PositionOf(p.lat, p.lng) == Position(150.0, 150.0)
  {
    ClickIsDrawnShifted(w, h, w, h);
    ScaleCancels(100.0, h);
    ScaleCancels(100.0, w);
  }

  lemma ScaleCancels(a: real, c: real)
    requires c > 0.0
    ensures a * c / c == a
  {
    var q := a * c / c;
    assert q * c == a * c;
    assert (q - a) * c == 0.0;
  }

  /** The click map that inverts the drawing map: the canvas spans 0.1
      degrees of latitude south from 34.1022 and 0.2 degrees of longitude
      east from -118.3437, so that Los Angeles is its centre. */
  function ClickToLatLngUnderCursor(x: real, y: real, w: real, h: real): (p: LatLng)
    requires w > 0.0 && h > 0.0
    ensures 0.0 <= y <= h ==> 34.1022 - 0.1 <= p.lat <= 34.1022
    ensures 0.0 <= x <= w ==> -118.3437 <= p.lng <= -118.3437 + 0.2
    ensures x == w / 2.0 && y == h / 2.0 ==> p == DefaultHome
  {
    LatLng(34.1022 - (y / h) * 0.1, -118.3437 + (x / w) * 0.2)
  }

  /** With the corrected click map a marker is drawn exactly where the
      click landed, in percent and in pixels. */
  lemma ClickUnderCursorIsDrawnThere(x: real, y: real, w: real, h: real)
    requires w > 0.0 && h > 0.0
    ensures var p := ClickToLatLngUnderCursor(x, y, w, h);
            PositionOf(p.lat, p.lng) == Position(100.0 * y / h, 100.0 * x / w)
            && PolylinePoint(p.lat, p.lng, w, h) == (x, y)
  {
    var p := ClickToLatLngUnderCursor(x, y, w, h);
    var pos := PositionOf(p.lat, p.lng);
    assert p.lng - -118.3437 == (x / w) * 0.2;
    assert pos.left == ((x / w) * 0.2 / 0.2) * 100.0 == 100.0 * x / w;
    assert 34.1022 - p.lat == (y / h) * 0.1;
    assert pos.top == ((y / h) * 0.1 / 0.1) * 100.0 == 100.0 * y / h;
    assert (x / w) * w == x && (y / h) * h == y;
    assert PolylinePoint(p.lat, p.lng, w, h).0 == pos.left / 100.0 * w == x;
    assert PolylinePoint(p.lat, p.lng, w, h).1 == pos.top / 100.0 * h == y;
  }
}

=== FILE: mission.dfy ===
/** The mission store: a pure reducer from (state, action) to state over the
    mission being edited and the library of saved missions. `Date.now()`,
    which the reducer reads to build fresh ids, is the parameter `now`. */
module MissionReducer {
  import opened Types
  import Text
  import opened Sequences

  datatype MissionState = MissionState(currentMission: Mission, savedMissions: seq<Mission>)

  datatype Action =
    | AddWaypoint(lat: real, lng: real)
    | UpdateWaypoint(waypoint: Waypoint)
    | DeleteWaypoint(id: string)
    | SetMissionName(name: string)
    | SetHomePosition(home: LatLng)
    | CreateNewMission
    | LoadMission(mission: Mission)
    | SaveMission
    | DeleteSavedMission(id: string)

  /** A fresh, empty mission stamped with the clock reading `now`. */
  function NewMission(now: nat): (m: Mission)
    ensures m.name == "New Mission"
    ensures m.waypoints == []
    ensures m.homePosition == Some(DefaultHome)
    ensures |m.id| > 8 && m.id[..8] == "mission_" && Text.AllDigits(m.id[8..])
  {
    Mission("mission_" + Text.NatToString(now), "New Mission", [], Some(DefaultHome))
  }

  /** Missions created at different clock readings have different ids. */
  lemma NewMissionIdsDiffer(a: nat, b: nat)
    requires a != b
    ensures NewMission(a).id != NewMission(b).id
  {
    if NewMission(a).id == NewMission(b).id {
      assert NewMission(a).id[8..] == Text.NatToString(a);
      assert NewMission(b).id[8..] == Text.NatToString(b);
      Text.NatToStringInjective(a, b);
    }
  }

  /** The store's state at start-up. */
  function InitialState(now: nat): (s: MissionState)
    ensures s.savedMissions == []
    ensures s.currentMission == NewMission(now)
    ensures s.currentMission.waypoints == []
  {
    MissionState(NewMission(now), [])
  }

  /** The waypoint a map click at (lat, lng) creates. */
  function ClickedWaypoint(lat: real, lng: real, now: nat): (w: Waypoint)
    ensures w.lat == lat && w.lng == lng
    ensures w.alt == 100.0 && w.speed == 15.0
    ensures w.altType == None && w.terrainAlt == None
  {
    Waypoint("wp_" + Text.NatToString(now), lat, lng, DefaultAltitude, DefaultSpeed, None, None)
  }

  // ---------------------------------------------------------------------
  // First-match search and distinct ids
  // ---------------------------------------------------------------------

  /** `findIndex` on the mission id: the first position whose id matches. */
  function FindIndex(ms: seq<Mission>, id: string): (r: Option<nat>)
    ensures r.Some? ==> r.value < |ms| && ms[r.value].id == id
    ensures r.Some? ==> forall j :: 0 <= j < r.value ==> ms[j].id != id
    ensures r.None? ==> forall j :: 0 <= j < |ms| ==> ms[j].id != id
    decreases |ms|
  {
    if |ms| == 0 then None
    else if ms[0].id == id then Some(0)
    else match FindIndex(ms[1..], id)
      case None => None
      case Some(k) => Some(k + 1)
  }

  /** No two saved missions share an id. */
  predicate DistinctIds(ms: seq<Mission>) {
    forall i, j :: 0 <= i < j < |ms| ==> ms[i].id != ms[j].id
  }

  // ---------------------------------------------------------------------
  // The list operations behind the actions
  // ---------------------------------------------------------------------

  /** Updating a waypoint: every waypoint carrying the payload's id is
      replaced by the payload, the others are kept, positions unchanged. */
  function ReplaceWaypoint(ws: seq<Waypoint>, p: Waypoint): (r: seq<Waypoint>)
    ensures |r| == |ws|
    ensures forall i :: 0 <= i < |ws| && ws[i].id == p.id ==> r[i] == p
    ensures forall i :: 0 <= i < |ws| && ws[i].id != p.id ==> r[i] == ws[i]
  {
    seq(|ws|, i requires 0 <= i < |ws| => if ws[i].id == p.id then p else ws[i])
  }

  /** Deleting a waypoint: the waypoints with another id, in their order
      and each as often as before; those with the id are gone. */
  function RemoveWaypoint(ws: seq<Waypoint>, id: string): (r: seq<Waypoint>)
    ensures forall i :: 0 <= i < |r| ==> r[i].id != id && r[i] in ws
    ensures forall i :: 0 <= i < |ws| && ws[i].id != id ==> ws[i] in r
    ensures forall w :: multiset(r)[w] == if w.id != id then multiset(ws)[w] else 0
    ensures IsSubsequence(r, ws)
  {
    var keep := (w: Waypoint) => w.id != id;
    FilterMembers(ws, keep);
    Filter(ws, keep)
  }

  /** Deleting a saved mission: the same filtering over the library. */
  function RemoveMission(ms: seq<Mission>, id: string): (r: seq<Mission>)
    ensures forall i :: 0 <= i < |r| ==> r[i].id != id && r[i] in ms
    ensures forall i :: 0 <= i < |ms| && ms[i].id != id ==> ms[i] in r
    ensures forall m :: multiset(r)[m] == if m.id != id then multiset(ms)[m] else 0
    ensures IsSubsequence(r, ms)
  {
    var keep := (m: Mission) => m.id != id;
    FilterMembers(ms, keep);
    Filter(ms, keep)
  }

  /** Saving: replace the first saved mission with the same id in place,
      or append when there is none. */
  function Upsert(ms: seq<Mission>, m: Mission): (r: seq<Mission>)
    ensures m in r
    ensures FindIndex(ms, m.id).Some? ==> |r| == |ms| && r == ms[FindIndex(ms, m.id).value := m]
    ensures FindIndex(ms, m.id).None? ==> |r| == |ms| + 1 && r[..|ms|] == ms && r[|ms|] == m
  {
    match FindIndex(ms, m.id)
    case Some(k) =>
      var r := ms[k := m];
      assert r[k] == m;
      r
    case None => ms + [m]
  }

  // ---------------------------------------------------------------------
  // The reducer
  // ---------------------------------------------------------------------

  function Reduce(s: MissionState, a: Action, now: nat): (r: MissionState)
    ensures !(a.SaveMission? || a.DeleteSavedMission?) ==> r.savedMissions == s.savedMissions
    ensures (a.SaveMission? || a.DeleteSavedMission?) ==> r.currentMission == s.currentMission
  {
    var cur := s.currentMission;
    match a
    case AddWaypoint(lat, lng) =>
      s.(currentMission := cur.(waypoints := cur.waypoints + [ClickedWaypoint(lat, lng, now)]))
    case UpdateWaypoint(p) =>
      s.(currentMission := cur.(waypoints := ReplaceWaypoint(cur.waypoints, p)))
    case DeleteWaypoint(id) =>
      s.(currentMission := cur.(waypoints := RemoveWaypoint(cur.waypoints, id)))
    case SetMissionName(name) =>
      s.(currentMission := cur.(name := name))
    case SetHomePosition(home) =>
      s.(currentMission := cur.(homePosition := Some(home)))
    case CreateNewMission =>
      s.(currentMission := NewMission(now))
    case LoadMission(m) =>
      s.(currentMission := m)
    case SaveMission =>
      s.(savedMissions := Upsert(s.savedMissions, cur))
    case DeleteSavedMission(id) =>
      s.(savedMissions := RemoveMission(s.savedMissions, id))
  }

  // ---------------------------------------------------------------------
  // Properties of the reducer
  // ---------------------------------------------------------------------

  /** A click appends exactly one default waypoint at the end, leaving the
      earlier ones as they were; nothing else in the mission changes. */
  lemma AddWaypointAppends(s: MissionState, lat: real, lng: real, now: nat)
    ensures var ws := s.currentMission.waypoints;
            var r := Reduce(s, AddWaypoint(lat, lng), now).currentMission;
            && |r.waypoints| == |ws| + 1
            && r.waypoints[..|ws|] == ws
            && r.waypoints[|ws|] == Waypoint("wp_" + Text.NatToString(now), lat, lng, 100.0, 15.0, None, None)
            && r.id == s.currentMission.id && r.name == s.currentMission.name
            && r.homePosition == s.currentMission.homePosition
  {
  }

  /** Updating with an id no waypoint carries leaves the list identical. */
  lemma UpdateAbsentIdIsIdentity(s: MissionState, p: Waypoint, now: nat)
    requires forall i :: 0 <= i < |s.currentMission.waypoints| ==> s.currentMission.waypoints[i].id != p.id
    ensures Reduce(s, UpdateWaypoint(p), now) == s
  {
    var ws := s.currentMission.waypoints;
    assert ReplaceWaypoint(ws, p) == ws;
  }

  /** Deleting an id that no waypoint carries leaves the list identical. */
  lemma DeleteAbsentIdIsIdentity(ws: seq<Waypoint>, id: string)
    requires forall i :: 0 <= i < |ws| ==> ws[i].id != id
    ensures RemoveWaypoint(ws, id) == ws
  {
    FilterAll(ws, (w: Waypoint) => w.id != id);
  }

  /** Applying the same update twice is applying it once: the replaced
      waypoints already carry the payload. */
  lemma UpdateIdempotent(s: MissionState, p: Waypoint, now: nat)
    ensures var once := Reduce(s, UpdateWaypoint(p), now);
            Reduce(once, UpdateWaypoint(p), now) == once
  {
    var once := ReplaceWaypoint(s.currentMission.waypoints, p);
    assert ReplaceWaypoint(once, p) == once;
  }

  /** Deleting the same id twice is deleting it once. */
  lemma DeleteIdempotent(s: MissionState, id: string, now: nat)
    ensures var once := Reduce(s, DeleteWaypoint(id), now);
            Reduce(once, DeleteWaypoint(id), now) == once
  {
    var once := RemoveWaypoint(s.currentMission.waypoints, id);
    DeleteAbsentIdIsIdentity(once, id);
  }

  /** Deleting the id of the waypoint a click just added takes the list
      back to what it was, provided no earlier waypoint carries that id. */
  lemma DeleteUndoesAdd(s: MissionState, lat: real, lng: real, now: nat)
    requires forall i :: 0 <= i < |s.currentMission.waypoints| ==>
               s.currentMission.waypoints[i].id != "wp_" + Text.NatToString(now)
    ensures var added := Reduce(s, AddWaypoint(lat, lng), now);
            Reduce(added, DeleteWaypoint("wp_" + Text.NatToString(now)), now) == s
  {
    var ws := s.currentMission.waypoints;
    var w := ClickedWaypoint(lat, lng, now);
    FilterAppendDropped(ws, w, (x: Waypoint) => x.id != w.id);
    DeleteAbsentIdIsIdentity(ws, w.id);
  }

  /** Renaming and moving home change exactly one field of the current
      mission; waypoints, id and the library are untouched. */
  lemma SettersChangeOneField(s: MissionState, name: string, home: LatLng, now: nat)
    ensures var r := Reduce(s, SetMissionName(name), now);
            r == s.(currentMission := s.currentMission.(name := name))
    ensures var r := Reduce(s, SetHomePosition(home), now);
            r == s.(currentMission := s.currentMission.(homePosition := Some(home)))
  {
  }

  /** Creating a new mission gives an empty, default-homed 'New Mission'
      and keeps the library. */
  lemma CreateNewMissionResets(s: MissionState, now: nat)
    ensures var r := Reduce(s, CreateNewMission, now);
            && r.currentMission.name == "New Mission"
            && r.currentMission.waypoints == []
            && r.currentMission.homePosition == Some(LatLng(34.0522, -118.2437))
            && r.savedMissions == s.savedMissions
  {
  }

  /** Saving twice is the same as saving once. */
  lemma SaveIdempotent(s: MissionState, now: nat)
    ensures Reduce(Reduce(s, SaveMission, now), SaveMission, now) == Reduce(s, SaveMission, now)
  {
    var m := s.currentMission;
    var ms := s.savedMissions;
    var once := Upsert(ms, m);
    match FindIndex(ms, m.id)
    case Some(k) =>
      FindIndexFirst(once, m.id, k);
    case None =>
      FindIndexFirst(once, m.id, |ms|);
  }

  /** A position holding the id, with none before it, is what `FindIndex`
      reports. */
  lemma {:induction false} FindIndexFirst(ms: seq<Mission>, id: string, k: nat)
    requires k < |ms| && ms[k].id == id
    requires forall j :: 0 <= j < k ==> ms[j].id != id
    ensures FindIndex(ms, id) == Some(k)
    decreases k
  {
    if k > 0 {
      FindIndexFirst(ms[1..], id, k - 1);
    }
  }

  /** After a save the library holds the current mission, every other
      saved mission whose id differs is still there, and nothing but the
      current mission was added. */
  lemma SaveStoresCurrent(s: MissionState, now: nat)
    ensures var r := Reduce(s, SaveMission, now).savedMissions;
            && s.currentMission in r
            && (forall i :: 0 <= i < |s.savedMissions| && s.savedMissions[i].id != s.currentMission.id
                  ==> s.savedMissions[i] in r)
            && (forall x :: x in r ==> x in s.savedMissions || x == s.currentMission)
  {
    var m := s.currentMission;
    var ms := s.savedMissions;
    var r := Upsert(ms, m);
    match FindIndex(ms, m.id)
    case Some(k) =>
      forall i | 0 <= i < |ms| && ms[i].id != m.id ensures ms[i] in r {
        assert r[i] == ms[i];
      }
      forall x | x in r ensures x in ms || x == m {
        var i :| 0 <= i < |r| && r[i] == x;
        if i != k { assert x == ms[i]; }
      }
    case None =>
  }

  /** Deleting from the library removes exactly the missions with that id
      and never touches the mission being edited. */
  lemma DeleteSavedRemovesOnlyId(s: MissionState, id: string, now: nat)
    ensures var r := Reduce(s, DeleteSavedMission(id), now);
            && r.currentMission == s.currentMission
            && (forall m :: m in r.savedMissions <==> m in s.savedMissions && m.id != id)
  {
  }

  /** A subsequence of a library without duplicate ids has none either. */
  lemma {:induction false} SubsequenceDistinct(a: seq<Mission>, b: seq<Mission>)
    requires IsSubsequence(a, b)
    requires DistinctIds(b)
    ensures DistinctIds(a)
    decreases |b|
  {
    if |a| > 0 {
      assert |b| > 0;
      if a[0] == b[0] && IsSubsequence(a[1..], b[1..]) {
        SubsequenceDistinct(a[1..], b[1..]);
        SubsequenceMembers(a[1..], b[1..]);
        forall i, j | 0 <= i < j < |a| ensures a[i].id != a[j].id {
          if i == 0 {
            assert a[j] == a[1..][j - 1];
            assert a[j] in a[1..];
            assert a[j] in b[1..];
            var k :| 0 <= k < |b[1..]| && b[1..][k] == a[j];
            assert b[k + 1] == a[j];
          } else {
            assert a[i] == a[1..][i - 1] && a[j] == a[1..][j - 1];
          }
        }
      } else {
        SubsequenceDistinct(a, b[1..]);
      }
    }
  }

  /** Every action keeps saved mission ids pairwise distinct. */
  lemma ReducePreservesDistinctIds(s: MissionState, a: Action, now: nat)
    requires DistinctIds(s.savedMissions)
    ensures DistinctIds(Reduce(s, a, now).savedMissions)
  {
    var ms := s.savedMissions;
    var m := s.currentMission;
    match a
    case SaveMission =>
      var r := Upsert(ms, m);
      match FindIndex(ms, m.id) {
        case Some(k) =>
          forall i, j | 0 <= i < j < |r| ensures r[i].id != r[j].id {
            assert r[i].id == ms[i].id && r[j].id == ms[j].id;
          }
        case None =>
      }
    case DeleteSavedMission(id) =>
      SubsequenceDistinct(RemoveMission(ms, id), ms);
    case _ =>
  }
}

=== FILE: seqs.dfy ===
/** Order-preserving subsequences and filtering, shared by the mission
    store and the forecast grouping. */
module Sequences {

  /** `a` can be obtained from `b` by deleting elements, keeping order. */
  predicate IsSubsequence<T(==)>(a: seq<T>, b: seq<T>)
    decreases |b|
  {
    if |a| == 0 then true
    else if |b| == 0 then false
    else (a[0] == b[0] && IsSubsequence(a[1..], b[1..])) || IsSubsequence(a, b[1..])
  }

  /** The elements of `xs` that satisfy `keep`, in their original order:
      every accepted element occurs as often as in `xs`, every rejected one
      not at all. */
  function Filter<T(==,!new)>(xs: seq<T>, keep: T -> bool): (r: seq<T>)
    ensures forall i :: 0 <= i < |r| ==> keep(r[i])
    ensures forall x :: multiset(r)[x] == if keep(x) then multiset(xs)[x] else 0
    ensures IsSubsequence(r, xs)
    decreases |xs|
  {
    if |xs| == 0 then []
    else
      var rest := Filter(xs[1..], keep);
      assert multiset(xs) == multiset{xs[0]} + multiset(xs[1..]) by {
        assert xs == [xs[0]] + xs[1..];
      }
      if keep(xs[0]) then [xs[0]] + rest else rest
  }

  /** An element is kept exactly when it occurs and is accepted. */
  lemma FilterMembers<T(!new)>(xs: seq<T>, keep: T -> bool)
    ensures forall x :: x in Filter(xs, keep) <==> x in xs && keep(x)
  {
    var r := Filter(xs, keep);
    forall x ensures x in r <==> x in xs && keep(x) {
      assert x in r <==> multiset(r)[x] > 0;
      assert x in xs <==> multiset(xs)[x] > 0;
    }
  }

  /** A subsequence made of accepted elements only is no longer than the
      filtered sequence. */
  lemma {:induction false} KeptSubsequenceBound<T(!new)>(a: seq<T>, xs: seq<T>, keep: T -> bool)
    requires IsSubsequence(a, xs)
    requires forall i :: 0 <= i < |a| ==> keep(a[i])
    ensures |a| <= |Filter(xs, keep)|
    decreases |xs|
  {
    if |a| > 0 {
      if a[0] == xs[0] && IsSubsequence(a[1..], xs[1..]) {
        KeptSubsequenceBound(a[1..], xs[1..], keep);
      } else {
        KeptSubsequenceBound(a, xs[1..], keep);
      }
    }
  }

  /** Filtering is the only way to keep accepted elements in order without
      losing any: an ordered subsequence made of accepted elements, as long
      as the filtered sequence, is the filtered sequence. */
  lemma {:induction false} FilterUnique<T(!new)>(a: seq<T>, xs: seq<T>, keep: T -> bool)
    requires IsSubsequence(a, xs)
    requires forall i :: 0 <= i < |a| ==> keep(a[i])
    requires |a| == |Filter(xs, keep)|
    ensures a == Filter(xs, keep)
    decreases |xs|
  {
    if |a| > 0 {
      var rest := Filter(xs[1..], keep);
      if a[0] == xs[0] && IsSubsequence(a[1..], xs[1..]) {
        assert keep(xs[0]);
        FilterUnique(a[1..], xs[1..], keep);
        assert a == [a[0]] + a[1..];
      } else {
        KeptSubsequenceBound(a, xs[1..], keep);
        assert !keep(xs[0]);
        FilterUnique(a, xs[1..], keep);
      }
    }
  }

  /** Filtering with a predicate every element satisfies changes nothing. */
  lemma {:induction false} FilterAll<T(!new)>(xs: seq<T>, keep: T -> bool)
    requires forall i :: 0 <= i < |xs| ==> keep(xs[i])
    ensures Filter(xs, keep) == xs
    decreases |xs|
  {
    if |xs| > 0 {
      FilterAll(xs[1..], keep);
      assert [xs[0]] + xs[1..] == xs;
    }
  }

  /** Filtering out an appended element that the predicate rejects. */
  lemma {:induction false} FilterAppendDropped<T(!new)>(xs: seq<T>, x: T, keep: T -> bool)
    requires !keep(x)
    ensures Filter(xs + [x], keep) == Filter(xs, keep)
    decreases |xs|
  {
    if |xs| == 0 {
      assert xs + [x] == [x];
    } else {
      assert (xs + [x])[1..] == xs[1..] + [x];
      FilterAppendDropped(xs[1..], x, keep);
    }
  }

  /** Every element of a subsequence occurs in the sequence. */
  lemma {:induction false} SubsequenceMembers<T>(a: seq<T>, b: seq<T>)
    requires IsSubsequence(a, b)
    ensures forall x :: x in a ==> x in b
    decreases |b|
  {
    if |a| > 0 {
      if a[0] == b[0] && IsSubsequence(a[1..], b[1..]) {
        SubsequenceMembers(a[1..], b[1..]);
        assert a == [a[0]] + a[1..];
      } else {
        SubsequenceMembers(a, b[1..]);
      }
    }
  }
}

=== FILE: telemetry.dfy ===
/** The telemetry simulation: start, stop, and the body of the two-second
    interval that hops the simulated vehicle to the next waypoint. Each
    `Math.random()` draw is a parameter of type `Draw`; the alert shown when
    starting without waypoints is returned as a message. */
module TelemetrySim {
  import opened Types

  /** One value of `Math.random()`: a real in [0, 1). */
  type Draw = r: real | 0.0 <= r < 1.0

  /** The provider's state: the published snapshot (null when absent), the
      running flag and the index of the waypoint last reported. */
  datatype SimState = SimState(telemetry: Option<Telemetry>, isSimulating: bool, waypointIndex: nat)

  const Idle: SimState := SimState(None, false, 0)

  const NoWaypointsMessage: string := "Cannot start simulation. No waypoints in mission."

  /** Outcome of pressing start: the new state and the alert raised, if any. */
  datatype StartOutcome = StartOutcome(state: SimState, alert: Option<string>)

  function StartSimulation(s: SimState, wps: seq<Waypoint>): (o: StartOutcome)
    ensures |wps| == 0 ==> o.state == s && o.alert == Some(NoWaypointsMessage)
    ensures |wps| > 0 ==> o.alert == None && o.state.isSimulating && o.state.waypointIndex == 0
    ensures |wps| > 0 ==> o.state.telemetry == Some(Telemetry(wps[0].lat, wps[0].lng, wps[0].alt, 0.0, 0.0, 100.0, 99.0))
  {
    if |wps| > 0 then
      StartOutcome(SimState(Some(Telemetry(wps[0].lat, wps[0].lng, wps[0].alt, 0.0, 0.0, 100.0, 99.0)), true, 0), None)
    else
      StartOutcome(s, Some(NoWaypointsMessage))
  }

  function StopSimulation(s: SimState): (r: SimState)
    ensures !r.isSimulating && r.telemetry == None && r.waypointIndex == 0
  {
    SimState(None, false, 0)
  }

  /** Battery reported at waypoint `next` of `n`: drains linearly with the
      position in the list. */
  function Battery(next: nat, n: nat): (b: real)
    requires next < n
    ensures 50.0 < b <= 100.0
    ensures b == 100.0 <==> next == 0
  {
    100.0 - (next as real / n as real) * 50.0
  }

  /** The battery drains as the vehicle moves down the list: a later
      waypoint always reports less charge, by exactly 50/n per step. */
  lemma BatteryDrains(next1: nat, next2: nat, n: nat)
    requires next1 < next2 < n
    ensures Battery(next2, n) < Battery(next1, n)
    ensures Battery(next1, n) - Battery(next2, n) == (next2 - next1) as real * 50.0 / n as real
  {
    var d := n as real;
    assert next1 as real / d < next2 as real / d;
    assert (next2 as real / d - next1 as real / d) * 50.0 == (next2 - next1) as real * 50.0 / d;
  }

  /** Heading drawn uniformly in degrees. */
  function Heading(r: Draw): (h: real)
    ensures 0.0 <= h < 360.0
  {
    r * 360.0
  }

  /** Signal strength with random jitter. */
  function Signal(r: Draw): (g: real)
    ensures 85.0 < g <= 95.0
  {
    95.0 - r * 10.0
  }

  /** One interval tick while the simulation runs over a non-empty list.
      The index wraps modulo the current list length, so it is valid even
      when the list shrank since the previous tick. */
  function Tick(s: SimState, wps: seq<Waypoint>, headingDraw: Draw, signalDraw: Draw): (r: SimState)
    requires |wps| > 0
    ensures r.waypointIndex < |wps|
    ensures r.waypointIndex == (s.waypointIndex + 1) % |wps|
    ensures r.isSimulating == s.isSimulating
    ensures r.telemetry.Some?
    ensures var t := r.telemetry.value; var w := wps[r.waypointIndex];
            t.lat == w.lat && t.lng == w.lng && t.alt == w.alt && t.speed == w.speed
    ensures r.telemetry.value.battery == Battery(r.waypointIndex, |wps|)
    ensures r.telemetry.value.heading == Heading(headingDraw)
    ensures r.telemetry.value.signal == Signal(signalDraw)
    ensures 50.0 < r.telemetry.value.battery <= 100.0
    ensures 0.0 <= r.telemetry.value.heading < 360.0
    ensures 85.0 < r.telemetry.value.signal <= 95.0
  {
    var next := (s.waypointIndex + 1) % |wps|;
    var w := wps[next];
    s.(waypointIndex := next,
       telemetry := Some(Telemetry(w.lat, w.lng, w.alt, Heading(headingDraw), w.speed,
                                   Battery(next, |wps|), Signal(signalDraw))))
  }

  /** Whether the interval is installed: running, with waypoints. */
  predicate Ticking(s: SimState, wps: seq<Waypoint>) {
    s.isSimulating && |wps| > 0
  }

  /** The effect that re-runs whenever the running flag or the waypoint
      list changes: without an installed interval it clears the snapshot
      and rewinds the index; otherwise the state is left to the ticks. */
  function Settle(s: SimState, wps: seq<Waypoint>): (r: SimState)
    ensures !Ticking(s, wps) ==> r.telemetry == None && r.waypointIndex == 0 && r.isSimulating == s.isSimulating
    ensures Ticking(s, wps) ==> r == s
  {
    if Ticking(s, wps) then s else s.(telemetry := None, waypointIndex := 0)
  }

  /** Stopping twice is stopping once, and stopping from any state lands in
      the idle state. */
  lemma StopIdempotent(s: SimState)
    ensures StopSimulation(StopSimulation(s)) == StopSimulation(s) == Idle
  {
  }

  /** After stop, the effect keeps the state idle: no telemetry reappears. */
  lemma StopThenSettleStaysIdle(s: SimState, wps: seq<Waypoint>)
    ensures Settle(StopSimulation(s), wps) == Idle
  {
  }

  /** Starting and immediately stopping ends idle whatever the list. */
  lemma StartThenStopIsIdle(s: SimState, wps: seq<Waypoint>)
    ensures StopSimulation(StartSimulation(s, wps).state) == Idle
  {
  }

  /** Battery is not monotone over a run: the tick that wraps from the last
      waypoint back to the first reports a full battery again. */
  lemma BatteryResetsOnWrap(s: SimState, wps: seq<Waypoint>, h: Draw, g: Draw)
    requires |wps| > 1
    requires s.waypointIndex == |wps| - 1
    ensures Tick(s, wps, h, g).waypointIndex == 0
    ensures Tick(s, wps, h, g).telemetry.value.battery == 100.0
  {
  }

  /** Ticks started from `start` visit the waypoints cyclically: after `k`
      ticks over an unchanging list the index is `(start + k) mod n`. */
  function Run(s: SimState, wps: seq<Waypoint>, draws: seq<(Draw, Draw)>): (r: SimState)
    requires |wps| > 0
    decreases |draws|
  {
    if |draws| == 0 then s
    else Run(Tick(s, wps, draws[0].0, draws[0].1), wps, draws[1..])
  }

  lemma {:induction false} RunVisitsCyclically(s: SimState, wps: seq<Waypoint>, draws: seq<(Draw, Draw)>)
    requires |wps| > 0
    requires s.waypointIndex < |wps|
    ensures Run(s, wps, draws).waypointIndex == (s.waypointIndex + |draws|) % |wps|
    ensures Run(s, wps, draws).isSimulating == s.isSimulating
    decreases |draws|
  {
    if |draws| > 0 {
      var t := Tick(s, wps, draws[0].0, draws[0].1);
      assert Run(s, wps, draws) == Run(t, wps, draws[1..]);
      assert t.waypointIndex == (s.waypointIndex + 1) % |wps| && t.isSimulating == s.isSimulating;
      RunVisitsCyclically(t, wps, draws[1..]);
      ModStep(s.waypointIndex, |draws|, |wps|);
    }
  }

  lemma ModStep(i: nat, k: nat, n: nat)
    requires i < n && k > 0
    ensures ((i + 1) % n + (k - 1)) % n == (i + k) % n
  {
    if i + 1 == n {
      ModUnique(i + 1, n, 1, 0);
      ModShift(k - 1, n);
      assert i + k == k - 1 + n;
    } else {
      ModUnique(i + 1, n, 0, i + 1);
    }
  }

  lemma ModShift(x: nat, n: nat)
    requires n > 0
    ensures (x + n) % n == x % n
  {
    ModUnique(x + n, n, x / n + 1, x % n);
  }

  /** Remainders are determined by any quotient-remainder decomposition. */
  lemma ModUnique(a: int, n: int, q: int, r: int)
    requires n > 0 && 0 <= r < n && a == q * n + r
    ensures a % n == r
  {
    var q', r' := a / n, a % n;
    assert (q - q') * n == r' - r;
    if q > q' {
      assert (q - q') * n >= n by { MulAtLeast(q - q', n); }
    } else if q < q' {
      assert (q' - q) * n >= n by { MulAtLeast(q' - q, n); }
    }
  }

  lemma MulAtLeast(k: int, n: int)
    requires k >= 1 && n > 0
    ensures k * n >= n
  {
  }
}

=== FILE: terrain.dfy ===
/** The altitude and terrain profile chart: absolute (sea-level) altitude
    of a waypoint, the unit conversion, and the alignment of a terrain
    profile of `m` samples to `n` waypoints by rounding `i/(n-1)*(m-1)`.
    Arithmetic is on exact reals. */
module Terrain {
  import opened Types
  import Numeric
  import Text

  const MetresToFeet: real := 3.28084

  /** Altitude above mean sea level: an above-ground waypoint adds its
      ground elevation (none recorded counts as 0). */
  function AbsoluteAltitude(wp: Waypoint): (a: real)
    ensures wp.altType != Some("AGL") ==> a == wp.alt
    ensures wp.altType == Some("AGL") && wp.terrainAlt.Some? ==> a - wp.terrainAlt.value == wp.alt
    ensures wp.altType == Some("AGL") && wp.terrainAlt.None? ==> a == wp.alt
  {
    if wp.altType == Some("AGL") then
      (if wp.terrainAlt.Some? then wp.terrainAlt.value else 0.0) + wp.alt
    else wp.alt
  }

  /** Factor applied to every plotted value: feet when the unit system is
      imperial, metres otherwise (including when none is configured). */
  function ConversionFactor(unitSystem: Option<string>): (f: real)
    ensures f > 0.0
    ensures unitSystem == Some("imperial") <==> f == MetresToFeet
    ensures unitSystem != Some("imperial") <==> f == 1.0
  {
    if unitSystem == Some("imperial") then MetresToFeet else 1.0
  }

  /** The profile sample plotted under waypoint `i` of `n`. */
  function AlignedIndex(i: nat, n: nat, m: nat): (k: int)
    requires n >= 2 && m >= 1 && i < n
    ensures 0 <= k < m
  {
    var ratio := i as real / (n - 1) as real;
    assert 0.0 <= ratio <= 1.0;
    var x := ratio * (m - 1) as real;
    assert 0.0 <= x <= (m - 1) as real by {
      assert x == ratio * (m - 1) as real;
      ScaleBelow(ratio, (m - 1) as real);
    }
    Numeric.Round(x)
  }

  lemma ScaleBelow(r: real, c: real)
    requires 0.0 <= r <= 1.0 && c >= 0.0
    ensures 0.0 <= r * c <= c
  {
  }

  /** The alignment is order-preserving: later waypoints never sit over
      earlier terrain samples. */
  lemma AlignedIndexMonotone(i: nat, j: nat, n: nat, m: nat)
    requires n >= 2 && m >= 1 && i <= j < n
    ensures AlignedIndex(i, n, m) <= AlignedIndex(j, n, m)
  {
    var d := (n - 1) as real;
    var c := (m - 1) as real;
    assert i as real / d <= j as real / d;
    assert (i as real / d) * c <= (j as real / d) * c by {
      ScaleMonotone(i as real / d, j as real / d, c);
    }
    Numeric.RoundMonotone((i as real / d) * c, (j as real / d) * c);
  }

  lemma ScaleMonotone(a: real, b: real, c: real)
    requires a <= b && c >= 0.0
    ensures a * c <= b * c
  {
  }

  /** The first waypoint sits over the first sample and the last over the
      last sample. */
  lemma AlignedEndpoints(n: nat, m: nat)
    requires n >= 2 && m >= 1
    ensures AlignedIndex(0, n, m) == 0
    ensures AlignedIndex(n - 1, n, m) == m - 1
  {
    Numeric.RoundInt(0);
    assert (n - 1) as real / (n - 1) as real == 1.0;
    Numeric.RoundInt(m - 1);
  }

  /** The two datasets and the x-axis labels of the chart. */
  datatype ChartData = ChartData(labels: seq<string>, flightPath: seq<real>, terrain: seq<real>)

  /** Builds the chart, or nothing when there are fewer than two
      waypoints. */
  method BuildChart(wps: seq<Waypoint>, profile: seq<real>, unitSystem: Option<string>)
    returns (chart: Option<ChartData>)
    ensures chart.None? <==> |wps| < 2
    ensures chart.Some? ==> |chart.value.labels| == |wps|
    ensures chart.Some? ==> forall i :: 0 <= i < |wps| ==> chart.value.labels[i] == "WP " + Text.NatToString(i + 1)
    ensures chart.Some? ==> |chart.value.flightPath| == |wps|
    ensures chart.Some? ==> forall i :: 0 <= i < |wps| ==>
              chart.value.flightPath[i] == AbsoluteAltitude(wps[i]) * ConversionFactor(unitSystem)
    ensures chart.Some? ==> |chart.value.terrain| == (if |profile| > 0 then |wps| else 0)
    ensures chart.Some? && |profile| > 0 ==> forall i :: 0 <= i < |wps| ==>
              chart.value.terrain[i] == profile[AlignedIndex(i, |wps|, |profile|)] * ConversionFactor(unitSystem)
    ensures chart.Some? && |profile| > 0 ==>
              chart.value.terrain[0] == profile[0] * ConversionFactor(unitSystem)
              && chart.value.terrain[|wps| - 1] == profile[|profile| - 1] * ConversionFactor(unitSystem)
  {
    var n := |wps|;
    if n < 2 {
      return None;
    }
    var f := ConversionFactor(unitSystem);
    var labels := seq(n, i requires 0 <= i < n => "WP " + Text.NatToString(i + 1));
    var flightPath := seq(n, i requires 0 <= i < n => AbsoluteAltitude(wps[i]) * f);
    var terrainData := seq(|profile|, i requires 0 <= i < |profile| => profile[i] * f);
    var aligned: seq<real> := [];
    if |terrainData| > 0 {
      var m := |terrainData|;
      var i := 0;
      while i < n
        invariant 0 <= i <= n
        invariant |aligned| == i
        invariant forall k :: 0 <= k < i ==> aligned[k] == terrainData[AlignedIndex(k, n, m)]
      {
        aligned := aligned + [terrainData[AlignedIndex(i, n, m)]];
        i := i + 1;
      }
      AlignedEndpoints(n, m);
    }
    chart := Some(ChartData(labels, flightPath, aligned));
  }

  /** An above-ground waypoint with a non-negative height is plotted at or
      above its recorded ground elevation, and raising the waypoint raises
      the plotted altitude by the same amount. */
  lemma AglNotBelowGround(wp: Waypoint, dh: real)
    requires wp.altType == Some("AGL") && wp.alt >= 0.0
    ensures wp.terrainAlt.Some? ==> AbsoluteAltitude(wp) >= wp.terrainAlt.value
    ensures AbsoluteAltitude(wp.(alt := wp.alt + dh)) == AbsoluteAltitude(wp) + dh
  {
  }
}

=== FILE: text.dfy ===
/** Text helpers shared by the serialisers and the id generators: decimal
    rendering of non-negative integers (what a JavaScript template literal
    prints for an integer-valued number), `Array.prototype.join` with a
    one-character separator, and the `split` that undoes it. */
module Text {

  /** The character of a decimal digit. */
  function DigitChar(d: nat): (c: char)
    requires d < 10
    ensures '0' <= c <= '9'
    ensures c as int - '0' as int == d
  {
    ['0', '1', '2', '3', '4', '5', '6', '7', '8', '9'][d]
  }

  predicate IsDigit(c: char) {
    '0' <= c <= '9'
  }

  predicate AllDigits(s: string) {
    forall i :: 0 <= i < |s| ==> IsDigit(s[i])
  }

  /** Decimal rendering of a non-negative integer, without leading zeros. */
  function NatToString(n: nat): (s: string)
    ensures |s| >= 1
    ensures AllDigits(s)
    ensures |s| > 1 ==> s[0] != '0'
    decreases n
  {
    if n < 10 then [DigitChar(n)]
    else NatToString(n / 10) + [DigitChar(n % 10)]
  }

  /** Reads a string of decimal digits back into the number it denotes. */
  function ParseNat(s: string): (n: nat)
    requires AllDigits(s)
    decreases |s|
  {
    if |s| == 0 then 0
    else 10 * ParseNat(s[..|s| - 1]) + (s[|s| - 1] as int - '0' as int)
  }

  /** Decimal rendering is undone by parsing: the id counters and the
      one-based row numbers the exporters print can be read back. */
  lemma {:induction false} ParseNatToString(n: nat)
    ensures ParseNat(NatToString(n)) == n
    decreases n
  {
    var s := NatToString(n);
    if n >= 10 {
      ParseNatToString(n / 10);
      assert s[..|s| - 1] == NatToString(n / 10);
    }
  }

  /** Decimal rendering is injective. */
  lemma NatToStringInjective(a: nat, b: nat)
    requires NatToString(a) == NatToString(b)
    ensures a == b
  {
    ParseNatToString(a);
    ParseNatToString(b);
  }

  /** The parts written one after another with a one-character separator
      between neighbours. */
  function Join(parts: seq<string>, sep: char): (s: string)
    ensures |parts| == 1 ==> s == parts[0]
    decreases |parts|
  {
    if |parts| == 0 then ""
    else if |parts| == 1 then parts[0]
    else parts[0] + [sep] + Join(parts[1..], sep)
  }

  /** Splitting at a character: the maximal pieces of `s` between occurrences of
      `sep`; there is always at least one piece. */
  function Split(s: string, sep: char): (parts: seq<string>)
    ensures |parts| >= 1
    ensures forall i :: 0 <= i < |parts| ==> sep !in parts[i]
    decreases |s|
  {
    if |s| == 0 then [""]
    else
      var rest := Split(s[1..], sep);
      if s[0] == sep then [""] + rest
      else [[s[0]] + rest[0]] + rest[1..]
  }

  /** A string without the separator is its own only piece. */
  lemma {:induction false} SplitNoSep(s: string, sep: char)
    requires sep !in s
    ensures Split(s, sep) == [s]
    decreases |s|
  {
    if |s| > 0 {
      assert sep !in s[1..];
      SplitNoSep(s[1..], sep);
      assert [s[0]] + s[1..] == s;
    }
  }

  /** Splitting distributes over a separator occurrence. */
  lemma {:induction false} SplitAppend(x: string, sep: char, y: string)
    ensures Split(x + [sep] + y, sep) == Split(x, sep) + Split(y, sep)
    decreases |x|
  {
    var s := x + [sep] + y;
    if |x| == 0 {
      assert s[1..] == y;
    } else {
      assert s[1..] == x[1..] + [sep] + y;
      SplitAppend(x[1..], sep, y);
    }
  }

  /** `split` undoes `join` when no part contains the separator. */
  lemma {:induction false} SplitJoin(parts: seq<string>, sep: char)
    requires |parts| >= 1
    requires forall i :: 0 <= i < |parts| ==> sep !in parts[i]
    ensures Split(Join(parts, sep), sep) == parts
    decreases |parts|
  {
    if |parts| == 1 {
      SplitNoSep(parts[0], sep);
    } else {
      SplitJoin(parts[1..], sep);
      SplitAppend(parts[0], sep, Join(parts[1..], sep));
      SplitNoSep(parts[0], sep);
      assert [parts[0]] + parts[1..] == parts;
    }
  }

  /** Decimal renderings never contain a separator that is not a digit. */
  lemma NatToStringNoSep(n: nat, sep: char)
    requires !IsDigit(sep)
    ensures sep !in NatToString(n)
  {
  }
}

=== FILE: types.dfy ===
/** The records shared by the whole planner: waypoints, missions and the
    telemetry snapshot, plus the defaults new waypoints receive.
    Every JavaScript `number` that is a coordinate, altitude or speed is a
    `real`; the optional fields of the records are `Option`s. */
module Types {

  datatype Option<+T> = None | Some(value: T)

  /** A point on the mock map, in degrees. */
  datatype LatLng = LatLng(lat: real, lng: real)

  /** A mission waypoint. `altType` and `terrainAlt` are read by the terrain
      chart although the waypoint record does not declare them; here they
      are optional fields that the mission editor never sets. */
  datatype Waypoint = Waypoint(
    id: string,
    lat: real,
    lng: real,
    alt: real,
    speed: real,
    altType: Option<string>,
    terrainAlt: Option<real>)

  datatype Mission = Mission(
    id: string,
    name: string,
    waypoints: seq<Waypoint>,
    homePosition: Option<LatLng>)

  /** One simulated telemetry snapshot. */
  datatype Telemetry = Telemetry(
    lat: real,
    lng: real,
    alt: real,
    heading: real,
    speed: real,
    battery: real,
    signal: real)

  /** Altitude (metres) and speed (metres per second) of a waypoint placed
      by a map click. */
  const DefaultAltitude: real := 100.0
  const DefaultSpeed: real := 15.0

  /** Centre of the mock map (Los Angeles), also the default home. */
  const DefaultHome: LatLng := LatLng(34.0522, -118.2437)
}

/** JavaScript's `Math.round` on exact reals: round half up. */
module Numeric {

  function Round(x: real): (n: int)
    ensures x - 0.5 < n as real <= x + 0.5
  {
    (x + 0.5).Floor
  }

  /** Rounding never reverses an order. */
  lemma RoundMonotone(x: real, y: real)
    requires x <= y
    ensures Round(x) <= Round(y)
  {
  }

  /** Rounding an integer gives it back. */
  lemma RoundInt(k: int)
    ensures Round(k as real) == k
  {
  }
}

=== FILE: weather.dfy ===
/** Forecast aggregation: the three-hourly items of a weather forecast are
    grouped by (short weekday) day, the first five days are kept, and each
    day is summarised by min/max temperature, mean humidity, maximum
    precipitation probability and a representative midday sky. The
    locale-dependent day name and the local hour of a timestamp are the
    parameters `dayOf` and `hourOf`. */
module Weather {
  import opened Types
  import Numeric
  import opened Sequences

  /** One forecast item: timestamp, temperature, humidity, probability of
      precipitation, and the first weather entry's icon and label. */
  datatype ForecastItem = ForecastItem(dt: int, temp: real, humidity: real, pop: real, icon: string, main: string)

  datatype ForecastDetail = ForecastDetail(
    day: string,
    tempMin: int,
    tempMax: int,
    humidity: int,
    precipitation: int,
    weatherIcon: string,
    weatherMain: string)

  const MaxDays: nat := 5

  // ---------------------------------------------------------------------
  // Numeric summaries of a non-empty list
  // ---------------------------------------------------------------------

  function MinOf(xs: seq<real>): (r: real)
    requires |xs| > 0
    ensures r in xs
    ensures forall i :: 0 <= i < |xs| ==> r <= xs[i]
    decreases |xs|
  {
    if |xs| == 1 then xs[0]
    else var m := MinOf(xs[1..]); if xs[0] <= m then xs[0] else m
  }

  function MaxOf(xs: seq<real>): (r: real)
    requires |xs| > 0
    ensures r in xs
    ensures forall i :: 0 <= i < |xs| ==> xs[i] <= r
    decreases |xs|
  {
    if |xs| == 1 then xs[0]
    else var m := MaxOf(xs[1..]); if xs[0] >= m then xs[0] else m
  }

  function Sum(xs: seq<real>): real
    decreases |xs|
  {
    if |xs| == 0 then 0.0 else xs[0] + Sum(xs[1..])
  }

  /** The arithmetic mean: the sum divided by the number of values. */
  function Mean(xs: seq<real>): real
    requires |xs| > 0
  {
    Sum(xs) / |xs| as real
  }

  /** The sum lies between length times the minimum and length times the
      maximum. */
  lemma {:induction false} SumBounds(xs: seq<real>, lo: real, hi: real)
    requires forall i :: 0 <= i < |xs| ==> lo <= xs[i] <= hi
    ensures |xs| as real * lo <= Sum(xs) <= |xs| as real * hi
    decreases |xs|
  {
    if |xs| > 0 {
      SumBounds(xs[1..], lo, hi);
      assert |xs| as real * lo == lo + (|xs| - 1) as real * lo;
      assert |xs| as real * hi == hi + (|xs| - 1) as real * hi;
    }
  }

  /** The mean lies between the minimum and the maximum. */
  lemma MeanBetweenMinAndMax(xs: seq<real>)
    requires |xs| > 0
    ensures MinOf(xs) <= Mean(xs) <= MaxOf(xs)
  {
    MeanWithin(xs, MinOf(xs), MaxOf(xs));
  }

  /** The mean of values within [lo, hi] is within [lo, hi]. */
  lemma MeanWithin(xs: seq<real>, lo: real, hi: real)
    requires |xs| > 0
    requires forall i :: 0 <= i < |xs| ==> lo <= xs[i] <= hi
    ensures lo <= Mean(xs) <= hi
  {
    var total := Sum(xs);
    SumBounds(xs, lo, hi);
    DivBounds(total, |xs| as real, lo, hi);
  }

  lemma DivBounds(s: real, n: real, lo: real, hi: real)
    requires n > 0.0 && n * lo <= s <= n * hi
    ensures lo <= s / n <= hi
  {
    assert s / n * n == s;
  }

  // ---------------------------------------------------------------------
  // Grouping by day
  // ---------------------------------------------------------------------

  /** The day of every item, in forecast order. */
  function Days(items: seq<ForecastItem>, dayOf: int -> string): (ds: seq<string>)
    ensures |ds| == |items|
    ensures forall p :: 0 <= p < |items| ==> ds[p] == dayOf(items[p].dt)
  {
    seq(|items|, p requires 0 <= p < |items| => dayOf(items[p].dt))
  }

  /** The distinct day names in order of first appearance: the keys of the
      object the items are pushed into, in insertion order. */
  function DayKeys(items: seq<ForecastItem>, dayOf: int -> string): (ks: seq<string>)
    ensures forall i, j :: 0 <= i < j < |ks| ==> ks[i] != ks[j]
    ensures forall p :: 0 <= p < |items| ==> Days(items, dayOf)[p] in ks
    ensures forall k :: 0 <= k < |ks| ==> ks[k] in Days(items, dayOf)
    decreases |items|
  {
    if |items| == 0 then []
    else
      var init := items[..|items| - 1];
      var ks := DayKeys(init, dayOf);
      var d := dayOf(items[|items| - 1].dt);
      assert Days(items, dayOf) == Days(init, dayOf) + [d];
      if d in ks then ks else ks + [d]
  }

  /** Days appear in first-appearance order: the keys of any prefix of the
      forecast are a prefix of the keys of the whole forecast. */
  lemma {:induction false} DayKeysPrefix(items: seq<ForecastItem>, dayOf: int -> string, p: nat)
    requires p <= |items|
    ensures var a := DayKeys(items[..p], dayOf); var b := DayKeys(items, dayOf);
            |a| <= |b| && b[..|a|] == a
    decreases |items| - p
  {
    if p < |items| {
      DayKeysPrefix(items, dayOf, p + 1);
      var a := DayKeys(items[..p], dayOf);
      var a' := DayKeys(items[..p + 1], dayOf);
      assert items[..p + 1][..p] == items[..p];
      assert a' == a || a' == a + [dayOf(items[p].dt)];
      assert a'[..|a|] == a;
    } else {
      assert items[..p] == items;
    }
  }

  /** The items of one day, in forecast order: each item of that day
      occurs as often as in the forecast, in the same order, and no item of
      another day occurs. */
  function Group(items: seq<ForecastItem>, dayOf: int -> string, d: string): (g: seq<ForecastItem>)
    ensures forall x :: x in g ==> x in items && dayOf(x.dt) == d
    ensures forall p :: 0 <= p < |items| && dayOf(items[p].dt) == d ==> items[p] in g
    ensures forall x :: multiset(g)[x] == if dayOf(x.dt) == d then multiset(items)[x] else 0
    ensures IsSubsequence(g, items)
  {
    var onDay := (x: ForecastItem) => dayOf(x.dt) == d;
    FilterMembers(items, onDay);
    Filter(items, onDay)
  }

  /** Every item falls into exactly one day group: the group of its own
      day, which is one of the listed days. */
  lemma ItemInExactlyOneGroup(items: seq<ForecastItem>, dayOf: int -> string, p: nat)
    requires p < |items|
    ensures dayOf(items[p].dt) in DayKeys(items, dayOf)
    ensures forall d :: items[p] in Group(items, dayOf, d) <==> d == dayOf(items[p].dt)
  {
    assert Days(items, dayOf)[p] == dayOf(items[p].dt);
  }

  /** Every listed day has at least one item. */
  lemma GroupNonEmpty(items: seq<ForecastItem>, dayOf: int -> string, k: nat)
    requires k < |DayKeys(items, dayOf)|
    ensures |Group(items, dayOf, DayKeys(items, dayOf)[k])| > 0
  {
    var d := DayKeys(items, dayOf)[k];
    assert d in Days(items, dayOf);
    var p :| 0 <= p < |items| && Days(items, dayOf)[p] == d;
    assert items[p] in Group(items, dayOf, d);
  }

  // ---------------------------------------------------------------------
  // Daily summary
  // ---------------------------------------------------------------------

  function Temps(es: seq<ForecastItem>): (r: seq<real>)
    ensures |r| == |es| && forall i :: 0 <= i < |es| ==> r[i] == es[i].temp
  {
    seq(|es|, i requires 0 <= i < |es| => es[i].temp)
  }

  function Humidities(es: seq<ForecastItem>): (r: seq<real>)
    ensures |r| == |es| && forall i :: 0 <= i < |es| ==> r[i] == es[i].humidity
  {
    seq(|es|, i requires 0 <= i < |es| => es[i].humidity)
  }

  function Pops(es: seq<ForecastItem>): (r: seq<real>)
    ensures |r| == |es| && forall i :: 0 <= i < |es| ==> r[i] == es[i].pop
  {
    seq(|es|, i requires 0 <= i < |es| => es[i].pop)
  }

  /** The representative item of a day: the first one whose local hour is
      noon or later, or else the day's first item. */
  function Midday(es: seq<ForecastItem>, hourOf: int -> int): (e: ForecastItem)
    requires |es| > 0
    ensures e in es
    ensures (exists i :: 0 <= i < |es| && hourOf(es[i].dt) >= 12) ==>
              hourOf(e.dt) >= 12
              && exists i :: 0 <= i < |es| && es[i] == e && forall j :: 0 <= j < i ==> hourOf(es[j].dt) < 12
    ensures (forall i :: 0 <= i < |es| ==> hourOf(es[i].dt) < 12) ==> e == es[0]
    decreases |es|
  {
    if hourOf(es[0].dt) >= 12 || |es| == 1 then es[0]
    else
      var e := Midday(es[1..], hourOf);
      if hourOf(e.dt) >= 12 then e else es[0]
  }

  function Summarise(day: string, es: seq<ForecastItem>, hourOf: int -> int): (f: ForecastDetail)
    requires |es| > 0
    ensures f.day == day
    ensures f.tempMin == Numeric.Round(MinOf(Temps(es))) && f.tempMax == Numeric.Round(MaxOf(Temps(es)))
    ensures f.tempMin <= f.tempMax
    ensures f.humidity == Numeric.Round(Mean(Humidities(es)))
    ensures f.precipitation == Numeric.Round(MaxOf(Pops(es)) * 100.0)
    ensures f.weatherIcon == Midday(es, hourOf).icon && f.weatherMain == Midday(es, hourOf).main
  {
    var mid := Midday(es, hourOf);
    MinLeMax(Temps(es));
    Numeric.RoundMonotone(MinOf(Temps(es)), MaxOf(Temps(es)));
    ForecastDetail(
      day,
      Numeric.Round(MinOf(Temps(es))),
      Numeric.Round(MaxOf(Temps(es))),
      Numeric.Round(Mean(Humidities(es))),
      Numeric.Round(MaxOf(Pops(es)) * 100.0),
      mid.icon,
      mid.main)
  }

  lemma MinLeMax(xs: seq<real>)
    requires |xs| > 0
    ensures MinOf(xs) <= MaxOf(xs)
  {
    assert MinOf(xs) <= xs[0] <= MaxOf(xs);
  }

  /** The reported humidity is the rounded mean, which lies between the
      rounded least and greatest humidity of the day. */
  lemma HumidityWithinDay(day: string, es: seq<ForecastItem>, hourOf: int -> int)
    requires |es| > 0
    ensures var f := Summarise(day, es, hourOf);
            Numeric.Round(MinOf(Humidities(es))) <= f.humidity <= Numeric.Round(MaxOf(Humidities(es)))
  {
    MeanBetweenMinAndMax(Humidities(es));
    Numeric.RoundMonotone(MinOf(Humidities(es)), Mean(Humidities(es)));
    Numeric.RoundMonotone(Mean(Humidities(es)), MaxOf(Humidities(es)));
  }

  /** With probabilities in [0, 1] the precipitation percentage lies in
      [0, 100]. */
  lemma PrecipitationPercent(day: string, es: seq<ForecastItem>, hourOf: int -> int)
    requires |es| > 0
    requires forall i :: 0 <= i < |es| ==> 0.0 <= es[i].pop <= 1.0
    ensures 0 <= Summarise(day, es, hourOf).precipitation <= 100
  {
    var m := MaxOf(Pops(es));
    assert m in Pops(es);
    Numeric.RoundMonotone(0.0, m * 100.0);
    Numeric.RoundMonotone(m * 100.0, 100.0);
    Numeric.RoundInt(0);
    Numeric.RoundInt(100);
  }

  // ---------------------------------------------------------------------
  // The whole pipeline
  // ---------------------------------------------------------------------

  function ProcessWeatherData(items: seq<ForecastItem>, dayOf: int -> string, hourOf: int -> int)
    : (r: seq<ForecastDetail>)
    ensures var ks := DayKeys(items, dayOf);
            |r| == (if |ks| < MaxDays then |ks| else MaxDays)
    ensures |r| <= 5
    ensures forall i :: 0 <= i < |r| ==> r[i].day == DayKeys(items, dayOf)[i]
    ensures forall i, j :: 0 <= i < j < |r| ==> r[i].day != r[j].day
    ensures forall i :: 0 <= i < |r| ==> r[i].tempMin <= r[i].tempMax
    ensures forall i :: 0 <= i < |r| ==> r[i].day in Days(items, dayOf)
  {
    var ks := DayKeys(items, dayOf);
    var shown := if |ks| < MaxDays then ks else ks[..MaxDays];
    seq(|shown|, i requires 0 <= i < |shown| =>
      GroupNonEmpty(items, dayOf, i);
      Summarise(shown[i], Group(items, dayOf, shown[i]), hourOf))
  }

  /** Each reported day summarises exactly the items of that day. */
  lemma ReportedDaySummarisesGroup(items: seq<ForecastItem>, dayOf: int -> string, hourOf: int -> int, i: nat)
    requires i < |ProcessWeatherData(items, dayOf, hourOf)|
    ensures var d := DayKeys(items, dayOf)[i];
            var g := Group(items, dayOf, d);
            |g| > 0 && ProcessWeatherData(items, dayOf, hourOf)[i] == Summarise(d, g, hourOf)
  {
    var ks := DayKeys(items, dayOf);
    var shown := if |ks| < MaxDays then ks else ks[..MaxDays];
    assert i < |shown| && shown[i] == ks[i];
    GroupNonEmpty(items, dayOf, i);
  }

  /** An empty forecast gives no days. */
  lemma EmptyForecast(dayOf: int -> string, hourOf: int -> int)
    ensures ProcessWeatherData([], dayOf, hourOf) == []
  {
  }
}
